=== FILE: README.md ===
# Sources menu and chapter requests, modelled in Dafny

This project models two pieces of a desktop client for a manga server.

- **Chapter requests** (`chapter_interaction.dfy`, module `ChapterInteraction`) covers the chapter
  interaction handler. Each operation (`getChapters`, `getChapter`, `updateChapter`, `getPage`,
  `queueChapterDownload`, `deleteChapterDownload`, `updateChapterMeta`) and each of its
  Manga/Chapter convenience overloads is a pure function. The function returns a `Request`: the
  client call used, the HTTP verb, the endpoint, and the query and form parameters. The URL that a
  request builder (`getChapterQuery` and the others) produces is kept abstract. An `Endpoint` value
  names the builder and carries its arguments. The central property is the partial-update form of
  `updateChapter`:
  - it contains a key exactly when that argument is non-null;
  - `false` and `0` are still sent;
  - it never contains any other key;
  - the keys always come in the order read, bookmarked, lastPageRead, markPrevRead;
  - the model's own strict reference reader (`DecodePatchForm`) reads the form back into the four
    arguments.
- **Sources menu view model** (`sources_menu.dfy`, module `SourcesMenu`) is a class whose fields
  are the view model's state:
  - the installed sources and the language-filtered `sources`;
  - the enabled languages and the loading flag;
  - the tab list, where `None` is the "all sources" tab, and the selected tab;
  - the search flag, the search query and the search callback;
  - the saved-state bundle, a `map` from keys to typed values.

  The two flow collectors in `init` are modelled as synchronous bundle writes. A write happens only
  when the value actually changes, as a state flow emits only on change, and `drop(1)` skips the
  initial value. The coroutine that `getSources` launches is the method `GetSources`. The outcome
  of the server request is a parameter: the list of sources, or a failure. The constructor runs
  `init` to the end of that coroutine.
- **Kotlin library behaviour** (`kotlin_std.dfy`, module `KotlinStd`) models nullable values,
  `Int`/`Long` ranges, `Boolean.toString`, decimal `Int.toString`/`Long.toString` (proved to parse
  back) and `isBlank`.

Some facts the model establishes:
- The tab list always starts with the "all sources" tab, and every later entry is a real source.
  This is part of the class invariant `Valid()`. Restoring always prepends that tab, and `closeTab`
  can never remove it.
- `sources` is always the installed sources filtered by the enabled languages, in their original
  order.
- Once the bundle mirrors the tabs and the selection, `selectTab`, `addTab` and `closeTab` keep it
  that way. The per-tab key that `closeTab` removes (the decimal id) can never be `source_tabs` or
  `selected_tab`.
- The bundle is not in sync after construction in general. The collectors skip their initial values
  and write only on a change. So a fresh bundle has no `source_tabs` until the first tab change. A
  load that ends with `[all]` and no selection leaves any saved ids in place, which is how saved
  tabs survive a failed load.
- A saved selection whose id is `-1` reads back as no selection, because `-1` is the default of
  `getLong`. The save-then-restore lemma therefore assumes a selected id other than `-1`.
- Restoring matches ids against the language-filtered `sources`, not against `installedSources`,
  so a saved tab whose language has since been disabled is dropped.
- Only `addTab` keeps the tab list duplicate-free; a saved list that repeats an id restores a
  duplicate tab. The model proves that `addTab` keeps the list duplicate-free, and that restoring
  from distinct ids gives distinct tabs.

## Model

| member | source | states |
|---|---|---|
| KotlinStd.BoolToString | src/main/kotlin/ca/gosyer/data/server/interactions/ChapterInteractionHandler.kt:71 | `Boolean.toString()` is non-empty and parses back to the same boolean |
| KotlinStd.IntToString | src/main/kotlin/ca/gosyer/data/server/interactions/ChapterInteractionHandler.kt:77 | `Int.toString()` is canonical decimal: non-empty, '-' first exactly for negative numbers, then digits with no leading zero ("0" only for zero, never "-0") |
| KotlinStd.IntToStringRoundTrip | src/main/kotlin/ca/gosyer/data/server/interactions/ChapterInteractionHandler.kt:77 | the decimal string of any integer parses back to that integer |
| KotlinStd.ParseIntCanonical | src/main/kotlin/ca/gosyer/data/server/interactions/ChapterInteractionHandler.kt:77 | the reader accepts only decimal strings of integers: any string it reads as `n` is exactly `n`'s `toString()` |
| KotlinStd.IntToStringInjective | src/main/kotlin/ca/gosyer/ui/sources/SourcesMenuViewModel.kt:124 | two ids have the same decimal string only if they are equal, so `closeTab` removes only that source's key |
| KotlinStd.IsWhitespace | src/main/kotlin/ca/gosyer/ui/sources/SourcesMenuViewModel.kt:136 | `Char.isWhitespace()`: space, tab, line feed, carriage return and no-break space are whitespace; no digit is, and nothing above U+3000 is |
| KotlinStd.IsBlank | src/main/kotlin/ca/gosyer/ui/sources/SourcesMenuViewModel.kt:136 | `isBlank()`: the empty text is blank, and a non-empty text is blank exactly when its first character is whitespace and the rest is blank |
| ChapterInteraction.GetChapters | src/main/kotlin/ca/gosyer/data/server/interactions/ChapterInteractionHandler.kt:33-43 | a retried GET of the manga's chapter list; the query holds `onlineFetch=true` if and only if `refresh`, and is empty otherwise; no form |
| ChapterInteraction.GetChaptersByManga | src/main/kotlin/ca/gosyer/data/server/interactions/ChapterInteractionHandler.kt:45 | a GET of the chapter list of `manga.id` |
| ChapterInteraction.GetChapter | src/main/kotlin/ca/gosyer/data/server/interactions/ChapterInteractionHandler.kt:47-51 | a retried GET of chapter (mangaId, chapterIndex) with no parameters |
| ChapterInteraction.GetChapterByChapter | src/main/kotlin/ca/gosyer/data/server/interactions/ChapterInteractionHandler.kt:53 | a GET of chapter (chapter.mangaId, chapter.index) |
| ChapterInteraction.GetChapterByManga | src/main/kotlin/ca/gosyer/data/server/interactions/ChapterInteractionHandler.kt:55 | a GET of chapter (manga.id, chapterIndex) |
| ChapterInteraction.GetChapterByMangaChapter | src/main/kotlin/ca/gosyer/data/server/interactions/ChapterInteractionHandler.kt:57 | a GET of chapter (manga.id, chapter.index) |
| ChapterInteraction.MangaChapterOverloadUsesMangaId | src/main/kotlin/ca/gosyer/data/server/interactions/ChapterInteractionHandler.kt:53-57 | `getChapter(manga, chapter)` equals `getChapter(chapter)` exactly when `manga.id == chapter.mangaId`: the manga's id is the one used |
| ChapterInteraction.UpdateChapterForm | src/main/kotlin/ca/gosyer/data/server/interactions/ChapterInteractionHandler.kt:69-82 | the `Parameters.build` block: one form entry per non-null argument and none for a null one (keys, order and values in the lemmas below) |
| ChapterInteraction.UpdateChapterFormKeys | src/main/kotlin/ca/gosyer/data/server/interactions/ChapterInteractionHandler.kt:69-82 | each of `read`, `bookmarked`, `lastPageRead`, `markPrevRead` is a form key if and only if its argument is non-null; no other key ever appears |
| ChapterInteraction.UpdateChapterFormEmpty | src/main/kotlin/ca/gosyer/data/server/interactions/ChapterInteractionHandler.kt:69-82 | the form is empty if and only if all four arguments are null |
| ChapterInteraction.UpdateChapterFormOrder | src/main/kotlin/ca/gosyer/data/server/interactions/ChapterInteractionHandler.kt:69-82 | every key is one of the four, none repeats, and they come in the order read, bookmarked, lastPageRead, markPrevRead |
| ChapterInteraction.UpdateChapterFormValues | src/main/kotlin/ca/gosyer/data/server/interactions/ChapterInteractionHandler.kt:70-81 | each present argument is sent with its `toString()` value (the `markPreviousRead` argument under `markPrevRead`); each absent one has no value |
| ChapterInteraction.UpdateChapterFormSendsFalsyValues | src/main/kotlin/ca/gosyer/data/server/interactions/ChapterInteractionHandler.kt:70-78 | presence, not truthiness: `false`, `false`, `0`, `false` give all four entries, with values `false` and `0` |
| ChapterInteraction.UpdateChapterFormRoundTrip | src/main/kotlin/ca/gosyer/data/server/interactions/ChapterInteractionHandler.kt:69-82 | decoding the form gives back exactly the four arguments, absent ones still absent; the decoder rejects unknown or repeated keys |
| ChapterInteraction.UpdateChapter | src/main/kotlin/ca/gosyer/data/server/interactions/ChapterInteractionHandler.kt:59-86 | a form submission with verb PATCH to the chapter's update endpoint; no query; its form decodes to the four arguments and is in the fixed key order |
| ChapterInteraction.UpdateChapterByManga | src/main/kotlin/ca/gosyer/data/server/interactions/ChapterInteractionHandler.kt:88-102 | a PATCH of chapter (manga.id, chapterIndex) |
| ChapterInteraction.UpdateChapterByMangaChapter | src/main/kotlin/ca/gosyer/data/server/interactions/ChapterInteractionHandler.kt:104-118 | a PATCH of chapter (manga.id, chapter.index) |
| ChapterInteraction.GetPage | src/main/kotlin/ca/gosyer/data/server/interactions/ChapterInteractionHandler.kt:120-126 | an image fetch (GET) of page (mangaId, chapterIndex, pageNum) with no parameters |
| ChapterInteraction.GetPageByChapter | src/main/kotlin/ca/gosyer/data/server/interactions/ChapterInteractionHandler.kt:128 | the page of (chapter.mangaId, chapter.index) |
| ChapterInteraction.GetPageByManga | src/main/kotlin/ca/gosyer/data/server/interactions/ChapterInteractionHandler.kt:130 | the page of (manga.id, chapterIndex) |
| ChapterInteraction.GetPageByMangaChapter | src/main/kotlin/ca/gosyer/data/server/interactions/ChapterInteractionHandler.kt:132 | the page of (manga.id, chapter.index) |
| ChapterInteraction.QueueChapterDownload | src/main/kotlin/ca/gosyer/data/server/interactions/ChapterInteractionHandler.kt:134-138 | a retried GET of the chapter's download-queue entry with no parameters |
| ChapterInteraction.QueueChapterDownloadByChapter | src/main/kotlin/ca/gosyer/data/server/interactions/ChapterInteractionHandler.kt:140 | a GET of the queue entry of (chapter.mangaId, chapter.index) |
| ChapterInteraction.QueueChapterDownloadByManga | src/main/kotlin/ca/gosyer/data/server/interactions/ChapterInteractionHandler.kt:142 | a GET of the queue entry of (manga.id, chapterIndex) |
| ChapterInteraction.QueueChapterDownloadByMangaChapter | src/main/kotlin/ca/gosyer/data/server/interactions/ChapterInteractionHandler.kt:144 | a GET of the queue entry of (manga.id, chapter.index) |
| ChapterInteraction.DeleteChapterDownload | src/main/kotlin/ca/gosyer/data/server/interactions/ChapterInteractionHandler.kt:146-150 | a retried DELETE of the chapter's download-queue entry with no parameters |
| ChapterInteraction.DeleteChapterDownloadByChapter | src/main/kotlin/ca/gosyer/data/server/interactions/ChapterInteractionHandler.kt:152 | a DELETE of the queue entry of (chapter.mangaId, chapter.index) |
| ChapterInteraction.DeleteChapterDownloadByManga | src/main/kotlin/ca/gosyer/data/server/interactions/ChapterInteractionHandler.kt:154 | a DELETE of the queue entry of (manga.id, chapterIndex) |
| ChapterInteraction.DeleteChapterDownloadByMangaChapter | src/main/kotlin/ca/gosyer/data/server/interactions/ChapterInteractionHandler.kt:156 | a DELETE of the queue entry of (manga.id, chapter.index) |
| ChapterInteraction.UpdateChapterMeta | src/main/kotlin/ca/gosyer/data/server/interactions/ChapterInteractionHandler.kt:158-168 | a PATCH form submission to the chapter's meta endpoint whose form keys are exactly `key` then `value`, carrying the given key and value |
| ChapterInteraction.UpdateChapterMetaByChapter | src/main/kotlin/ca/gosyer/data/server/interactions/ChapterInteractionHandler.kt:170 | a PATCH of the meta of (chapter.mangaId, chapter.index) |
| ChapterInteraction.UpdateChapterMetaByManga | src/main/kotlin/ca/gosyer/data/server/interactions/ChapterInteractionHandler.kt:172 | a PATCH of the meta of (manga.id, chapterIndex) |
| ChapterInteraction.UpdateChapterMetaByMangaChapter | src/main/kotlin/ca/gosyer/data/server/interactions/ChapterInteractionHandler.kt:174 | a PATCH of the meta of (manga.id, chapter.index) |
| ChapterInteraction.OverloadsDelegate | src/main/kotlin/ca/gosyer/data/server/interactions/ChapterInteractionHandler.kt:45-174 | every Manga/Chapter overload gives the same request as the id-based operation called with `manga.id`, or with `chapter.mangaId` and `chapter.index` |
| SourcesMenu.FilterByLangs | src/main/kotlin/ca/gosyer/ui/sources/SourcesMenuViewModel.kt:78-80 | a source is kept if and only if it is installed and its language is enabled |
| SourcesMenu.FilterByLangsAppend | src/main/kotlin/ca/gosyer/ui/sources/SourcesMenuViewModel.kt:79 | filtering keeps order: filtering a concatenation concatenates the filtered parts |
| SourcesMenu.FilterByLangsCounts | src/main/kotlin/ca/gosyer/ui/sources/SourcesMenuViewModel.kt:79 | every occurrence of an enabled-language source is kept, and every other occurrence is dropped |
| SourcesMenu.FilterByLangsKeepsAll | src/main/kotlin/ca/gosyer/ui/sources/SourcesMenuViewModel.kt:79 | when every installed language is enabled, the list is kept whole |
| SourcesMenu.SourceLanguages | src/main/kotlin/ca/gosyer/ui/sources/SourcesMenuViewModel.kt:143-145 | a language is in the set if and only if some installed source has it |
| SourcesMenu.TabsAfterAdd | src/main/kotlin/ca/gosyer/ui/sources/SourcesMenuViewModel.kt:112-115 | the source is open afterwards; it is appended only if it was not already open |
| SourcesMenu.TabsAfterAddIdempotent | src/main/kotlin/ca/gosyer/ui/sources/SourcesMenuViewModel.kt:112-117 | adding twice equals adding once; adding never creates a duplicate and keeps the "all" tab first |
| SourcesMenu.RemoveFirst | src/main/kotlin/ca/gosyer/ui/sources/SourcesMenuViewModel.kt:120 | `List.minus` removes one occurrence (the list is one shorter with that element counted once less), or leaves the list alone when the element is absent |
| SourcesMenu.RemoveFirstAt | src/main/kotlin/ca/gosyer/ui/sources/SourcesMenuViewModel.kt:120 | the removed occurrence is the first one and the rest keep their order: position `k` of the result holds the element at `k` before the first occurrence and at `k + 1` after it |
| SourcesMenu.RemoveFirstNoDuplicates | src/main/kotlin/ca/gosyer/ui/sources/SourcesMenuViewModel.kt:120 | in a duplicate-free tab list, closing removes the source completely and leaves exactly the other tabs |
| SourcesMenu.RemoveFirstKeepsShape | src/main/kotlin/ca/gosyer/ui/sources/SourcesMenuViewModel.kt:119-125 | closing a tab never removes the leading "all sources" tab |
| SourcesMenu.NonNullIds | src/main/kotlin/ca/gosyer/ui/sources/SourcesMenuViewModel.kt:61 | the saved id list is no longer than the tab list (the "all" tab has no id) |
| SourcesMenu.NonNullIdsAt | src/main/kotlin/ca/gosyer/ui/sources/SourcesMenuViewModel.kt:60 | for a tab list starting with the "all" tab, `source_tabs` holds one id per source tab, and position `i - 1` holds the id of tab `i` |
| SourcesMenu.PersistTabs | src/main/kotlin/ca/gosyer/ui/sources/SourcesMenuViewModel.kt:59-61 | `source_tabs` then holds exactly a long array of the ids of the non-null tabs, in order; every other key is untouched |
| SourcesMenu.PersistSelection | src/main/kotlin/ca/gosyer/ui/sources/SourcesMenuViewModel.kt:64-70 | `selected_tab` then holds exactly the selected id as a long, whatever the id (`-1` included), or is absent for no selection; every other key is untouched |
| SourcesMenu.MirrorTabs | src/main/kotlin/ca/gosyer/ui/sources/SourcesMenuViewModel.kt:58-62 | a change of the tabs writes exactly their ids under `source_tabs`; no change writes nothing |
| SourcesMenu.MirrorSelection | src/main/kotlin/ca/gosyer/ui/sources/SourcesMenuViewModel.kt:64-72 | a change of the selection writes exactly the new id under `selected_tab` (`-1` included) or removes it; no change writes nothing |
| SourcesMenu.MinusOneSelectionReadsBackNone | src/main/kotlin/ca/gosyer/ui/sources/SourcesMenuViewModel.kt:67-98 | a selected source with id `-1` is saved as `-1`, and that reads back as no selection because `-1` is `getLong`'s default |
| SourcesMenu.MirrorsKeepInSync | src/main/kotlin/ca/gosyer/ui/sources/SourcesMenuViewModel.kt:59-73 | once the bundle mirrors the tabs and the selection, the two collectors keep it mirroring them after any change |
| SourcesMenu.SelectionAfterClose | src/main/kotlin/ca/gosyer/ui/sources/SourcesMenuViewModel.kt:121-123 | the selection becomes empty exactly when it was empty or was the closed source (compared by id); otherwise it is unchanged |
| SourcesMenu.CloseTabKeepsInSync | src/main/kotlin/ca/gosyer/ui/sources/SourcesMenuViewModel.kt:119-125 | closing a tab, mirroring the new tabs and selection, and dropping the per-tab key leaves the bundle in sync with the new state |
| SourcesMenu.TabStateKeyNotReserved | src/main/kotlin/ca/gosyer/ui/sources/SourcesMenuViewModel.kt:124 | the per-tab key `closeTab` removes is never `source_tabs` or `selected_tab` |
| SourcesMenu.FindById | src/main/kotlin/ca/gosyer/ui/sources/SourcesMenuViewModel.kt:95 | a found source is the first loaded source with the id (no earlier source has it); nothing is found exactly when no loaded source has the id |
| SourcesMenu.GetLongArray | src/main/kotlin/ca/gosyer/ui/sources/SourcesMenuViewModel.kt:91 | `getLongArray`: a value exactly when the key holds a long array, and then that array |
| SourcesMenu.GetLong | src/main/kotlin/ca/gosyer/ui/sources/SourcesMenuViewModel.kt:97 | `getLong`: the stored long when the key holds one, otherwise the given default |
| SourcesMenu.MatchIds | src/main/kotlin/ca/gosyer/ui/sources/SourcesMenuViewModel.kt:93-96 | every restored source is loaded, has one of the saved ids and is the first loaded source with its id; at most one per saved id |
| SourcesMenu.RestoredTabs | src/main/kotlin/ca/gosyer/ui/sources/SourcesMenuViewModel.kt:91-96 | the restored list starts with the "all" tab, followed only by loaded sources |
| SourcesMenu.RestoredSelection | src/main/kotlin/ca/gosyer/ui/sources/SourcesMenuViewModel.kt:97-101 | `-1` gives no selection; otherwise the first loaded source with the id (no earlier source has it), or none when no source has it |
| SourcesMenu.RestoredTabsDropUnmatched | src/main/kotlin/ca/gosyer/ui/sources/SourcesMenuViewModel.kt:93-96 | the restored tabs' ids are exactly the saved ids that match a loaded source, in order; the others are silently dropped |
| SourcesMenu.RestoredTabsDistinct | src/main/kotlin/ca/gosyer/ui/sources/SourcesMenuViewModel.kt:93-96 | restoring from distinct saved ids gives distinct tabs |
| SourcesMenu.SaveRestoreRoundTrip | src/main/kotlin/ca/gosyer/ui/sources/SourcesMenuViewModel.kt:59-101 | saving the tabs and the selection and then restoring them gives them back, when every saved source is still loaded, source ids are distinct and the selected id is not `-1` |
| SourcesMenu.RestoreDropsMissingSource | src/main/kotlin/ca/gosyer/ui/sources/SourcesMenuViewModel.kt:91-101 | with ids 5 and 7 saved, 7 selected and only source 5 loaded, the tabs are [all, source 5] and there is no selection |
| SourcesMenu.TabsAfterLoad | src/main/kotlin/ca/gosyer/ui/sources/SourcesMenuViewModel.kt:90-96 | without saved ids the tabs are unchanged; with saved ids they are the "all" tab followed only by shown sources whose ids were saved, at most one per saved id; the "all"-first shape is kept either way |
| SourcesMenu.SelectionAfterLoad | src/main/kotlin/ca/gosyer/ui/sources/SourcesMenuViewModel.kt:97-101 | without saved ids the selection is unchanged; with saved ids a saved `-1` gives none, and otherwise any selection is the first shown source with the saved id |
| SourcesMenu.LoadWithoutSavedTabs | src/main/kotlin/ca/gosyer/ui/sources/SourcesMenuViewModel.kt:90-92 | without saved tab ids the load leaves the tabs, the selection and the bundle as they are |
| SourcesMenu.LoadWithSavedTabs | src/main/kotlin/ca/gosyer/ui/sources/SourcesMenuViewModel.kt:91-101 | with saved tab ids the load replaces the tabs by the restored list and the selection by the restored selection |
| SourcesMenu.FreshBundleNotYetSaved | src/main/kotlin/ca/gosyer/ui/sources/SourcesMenuViewModel.kt:59-73 | a load into an empty bundle that keeps `[all]` and no selection writes nothing, so the bundle holds no `source_tabs` and is not in sync |
| SourcesMenu.FailedLoadKeepsSavedIds | src/main/kotlin/ca/gosyer/ui/sources/SourcesMenuViewModel.kt:82-102 | with ids 5 and 7 saved and 7 selected, a load that finds no sources gives `[all]` and no selection and leaves the saved ids in the bundle |
| SourcesMenu.NormalizeQuery | src/main/kotlin/ca/gosyer/ui/sources/SourcesMenuViewModel.kt:136 | the stored query is null if and only if the text is empty or whitespace only; otherwise it is the text unchanged |
| SourcesMenu.SourcesMenuViewModel.constructor | src/main/kotlin/ca/gosyer/ui/sources/SourcesMenuViewModel.kt:25-76 | after `init` and the initial load: not loading; on failure no installed sources; `sources` is the filtered list; tabs and selection are the load's result from `[all]` and none (restored when `source_tabs` is saved, see `LoadWithSavedTabs` and `LoadWithoutSavedTabs`); the bundle gets only the collectors' writes for what changed from `[all]` and none |
| SourcesMenu.SourcesMenuViewModel.SetSourceTabs | src/main/kotlin/ca/gosyer/ui/sources/SourcesMenuViewModel.kt:59-63 | assigning the tabs, with the collector writing the bundle only on a change |
| SourcesMenu.SourcesMenuViewModel.SetSelectedSourceTab | src/main/kotlin/ca/gosyer/ui/sources/SourcesMenuViewModel.kt:65-73 | assigning the selection, with the collector writing the bundle only on a change |
| SourcesMenu.SourcesMenuViewModel.SetSources | src/main/kotlin/ca/gosyer/ui/sources/SourcesMenuViewModel.kt:78-80 | `sources` becomes the installed sources filtered by the given languages |
| SourcesMenu.SourcesMenuViewModel.GetSources | src/main/kotlin/ca/gosyer/ui/sources/SourcesMenuViewModel.kt:82-106 | whether the fetch succeeds or fails, loading ends and the restore step runs against the filtered sources; a failure keeps the installed sources |
| SourcesMenu.SourcesMenuViewModel.RestoreSavedTabs | src/main/kotlin/ca/gosyer/ui/sources/SourcesMenuViewModel.kt:90-102 | the `finally` block: tabs and selection become the load's result from the saved bundle, the bundle mirrors the change, and loading ends |
| SourcesMenu.SourcesMenuViewModel.SelectTab | src/main/kotlin/ca/gosyer/ui/sources/SourcesMenuViewModel.kt:108-110 | the selection becomes the given tab, and the bundle stays in sync |
| SourcesMenu.SourcesMenuViewModel.AddTab | src/main/kotlin/ca/gosyer/ui/sources/SourcesMenuViewModel.kt:112-117 | appends the source only if it is not open, always selects it, keeps the list duplicate-free and the bundle in sync |
| SourcesMenu.SourcesMenuViewModel.CloseTab | src/main/kotlin/ca/gosyer/ui/sources/SourcesMenuViewModel.kt:119-125 | removes the tab; clears the selection only if its id is the closed source's id; removes the key that is the decimal id; keeps the "all" tab and the bundle in sync |
| SourcesMenu.SourcesMenuViewModel.SetSearch | src/main/kotlin/ca/gosyer/ui/sources/SourcesMenuViewModel.kt:127-129 | registers the search callback |
| SourcesMenu.SourcesMenuViewModel.EnableSearch | src/main/kotlin/ca/gosyer/ui/sources/SourcesMenuViewModel.kt:131-133 | sets the search flag |
| SourcesMenu.SourcesMenuViewModel.Search | src/main/kotlin/ca/gosyer/ui/sources/SourcesMenuViewModel.kt:135-137 | stores the normalised query: null for blank text |
| SourcesMenu.SourcesMenuViewModel.SubmitSearch | src/main/kotlin/ca/gosyer/ui/sources/SourcesMenuViewModel.kt:139-141 | with no callback there is no call; otherwise the callback is called with the current query; no state changes either way |
| SourcesMenu.SourcesMenuViewModel.GetSourceLanguages | src/main/kotlin/ca/gosyer/ui/sources/SourcesMenuViewModel.kt:143-145 | exactly the languages of the installed sources |
| SourcesMenu.SourcesMenuViewModel.SetEnabledLanguages | src/main/kotlin/ca/gosyer/ui/sources/SourcesMenuViewModel.kt:147-151 | `languages` becomes the given set and `sources` the installed sources filtered by it |

## Left out

- Kotlin default arguments are not modelled as such: `refresh = false` of `getChapters` and the four `= null` defaults of `updateChapter` become explicit `false` and `None` arguments, which loses no behaviour.
- Executing requests is not modelled: the retrying client calls (`getRepeat`, `submitFormRepeat`, `deleteRepeat`), retries, `withIOContext`, JSON decoding of the results and the concatenation with `serverUrl`. A `Request` only records which call is made.
- The request builders (`getChapterQuery` and the others) are not part of this model. The endpoint is an abstract value carrying the builder's arguments, not a URL string.
- The `imageFromUrl` helper is not part of this model. `GetPage` records it as the client call, with verb GET. The caller-supplied request-customisation block of `getPage` is opaque and is left out.
- Only the identifying fields of `Manga` (`id`) and `Chapter` (`mangaId`, `index`) are modelled. Of `Source`, the model keeps `id`, `name` and `lang`. Equality of sources is structural, like the data class's.
- Coroutines are not modelled. The launched load runs to completion inside the constructor. The collectors run synchronously. Cancellation (`throwIfCancellation`) is not modelled. A cancelled load would run the same `finally` block and then propagate.
- Logging is left out. So are the persistence of the enabled languages in the catalog preferences and the `serverUrl` state flow.
- The search callback is an opaque handle. `SubmitSearch` returns the callback and the argument it would be called with. What the callback does is not modelled.
- `isWhitespace` is a fixed list of code points. The list is the ones Java's `Character.isWhitespace` or `Character.isSpaceChar` accept in current Unicode. Later Unicode changes are not tracked.
- The bundle library is not part of this model. `getLongArray` and `getLong` are assumed to return null or the default when the key holds a value of another type. Values other than long arrays and longs are opaque.
- The window dialog and the loading screen are left out. They are UI rendering, with floating-point progress.

=== FILE: chapter_interaction.dfy ===
/**
 * The requests that the chapter interaction handler sends to the server.
 *
 * Each operation is a pure function from its arguments to a description of
 * the HTTP call it makes: which client call, which verb, which endpoint, and
 * which query and form parameters. The concrete URL built by the request
 * builders (`getChapterQuery` and the others) is kept abstract: an `Endpoint`
 * names the builder and carries its arguments.
 */
module ChapterInteraction {
  import opened KotlinStd

  /** The identifying fields of the server's manga and chapter records. */
  datatype Manga = Manga(id: Int64)
  datatype Chapter = Chapter(mangaId: Int64, index: Int32)

  datatype Verb = Get | Delete | Patch

  /** The retrying client call (or image helper) that executes the request. */
  datatype ClientCall = GetRepeat | SubmitFormRepeat | DeleteRepeat | ImageFromUrl

  /** One constructor per request builder, carrying that builder's arguments. */
  datatype Endpoint =
    | MangaChaptersQuery(mangaId: Int64)
    | ChapterQuery(mangaId: Int64, chapterIndex: Int32)
    | UpdateChapterRequest(mangaId: Int64, chapterIndex: Int32)
    | PageQuery(mangaId: Int64, chapterIndex: Int32, pageNum: Int32)
    | QueueDownloadChapterRequest(mangaId: Int64, chapterIndex: Int32)
    | DeleteDownloadChapterRequest(mangaId: Int64, chapterIndex: Int32)
    | UpdateChapterMetaRequest(mangaId: Int64, chapterIndex: Int32)

  /** A query or form parameter: name and string value. */
  type Param = (string, string)

  datatype Request = Request(call: ClientCall, verb: Verb, endpoint: Endpoint, query: seq<Param>, form: seq<Param>)

  // ---------------------------------------------------------------------------
  // Parameter lists

  function Keys(ps: seq<Param>): seq<string>
  {
    if ps == [] then [] else [ps[0].0] + Keys(ps[1..])
  }

  /** The first value under exactly this key, or none. */
  function Lookup(ps: seq<Param>, key: string): Option<string>
  {
    if ps == [] then None else if ps[0].0 == key then Some(ps[0].1) else Lookup(ps[1..], key)
  }

  lemma {:induction false} KeysAppend(a: seq<Param>, b: seq<Param>)
    ensures Keys(a + b) == Keys(a) + Keys(b)
  {
    if a == [] {
      assert a + b == b;
    } else {
      assert (a + b)[0] == a[0] && (a + b)[1..] == a[1..] + b;
      KeysAppend(a[1..], b);
    }
  }

  lemma {:induction false} LookupAppend(a: seq<Param>, b: seq<Param>, key: string)
    ensures Lookup(a + b, key) == if key in Keys(a) then Lookup(a, key) else Lookup(b, key)
  {
    if a == [] {
      assert a + b == b;
    } else {
      assert (a + b)[0] == a[0] && (a + b)[1..] == a[1..] + b;
      LookupAppend(a[1..], b, key);
    }
  }

  // ---------------------------------------------------------------------------
  // getChapters

  const OnlineFetchParam: Param := ("onlineFetch", "true")

  /** `getChapters(mangaId, refresh)`: a GET of the chapter list, forcing a server refresh when asked. */
  function GetChapters(mangaId: Int64, refresh: bool): (r: Request)
    ensures r.call == GetRepeat && r.verb == Get && r.endpoint == MangaChaptersQuery(mangaId) && r.form == []
    ensures OnlineFetchParam in r.query <==> refresh
    ensures !refresh ==> r.query == []
    ensures |r.query| <= 1
  {
    Request(GetRepeat, Get, MangaChaptersQuery(mangaId), if refresh then [OnlineFetchParam] else [], [])
  }

  function GetChaptersByManga(manga: Manga, refresh: bool): (r: Request)
    ensures r.verb == Get && r.endpoint == MangaChaptersQuery(manga.id)
  {
    GetChapters(manga.id, refresh)
  }

  // ---------------------------------------------------------------------------
  // getChapter

  /** `getChapter(mangaId, chapterIndex)`: a plain GET of one chapter. */
  function GetChapter(mangaId: Int64, chapterIndex: Int32): (r: Request)
    ensures r.call == GetRepeat && r.verb == Get && r.endpoint == ChapterQuery(mangaId, chapterIndex)
    ensures r.query == [] && r.form == []
  {
    Request(GetRepeat, Get, ChapterQuery(mangaId, chapterIndex), [], [])
  }

  function GetChapterByChapter(chapter: Chapter): (r: Request)
    ensures r.verb == Get && r.endpoint == ChapterQuery(chapter.mangaId, chapter.index)
  {
    GetChapter(chapter.mangaId, chapter.index)
  }

  function GetChapterByManga(manga: Manga, chapterIndex: Int32): (r: Request)
    ensures r.verb == Get && r.endpoint == ChapterQuery(manga.id, chapterIndex)
  {
    GetChapter(manga.id, chapterIndex)
  }

  /** The manga's id wins over the chapter's own `mangaId`. */
  function GetChapterByMangaChapter(manga: Manga, chapter: Chapter): (r: Request)
    ensures r.verb == Get && r.endpoint == ChapterQuery(manga.id, chapter.index)
  {
    GetChapter(manga.id, chapter.index)
  }

  // ---------------------------------------------------------------------------
  // updateChapter: the partial-update form

  const ReadKey := "read"
  const BookmarkedKey := "bookmarked"
  const LastPageReadKey := "lastPageRead"
  const MarkPrevReadKey := "markPrevRead"

  /** Position of a key in the fixed order of the update form; 4 for any other key. */
  function PatchKeyRank(key: string): nat
  {
    if key == ReadKey then 0
    else if key == BookmarkedKey then 1
    else if key == LastPageReadKey then 2
    else if key == MarkPrevReadKey then 3
    else 4
  }

  /** Every key has a rank in `[lo, hi)`, and the ranks strictly increase along the form. */
  predicate RanksAscendIn(form: seq<Param>, lo: nat, hi: nat)
  {
    && (forall i :: 0 <= i < |form| ==> lo <= PatchKeyRank(form[i].0) < hi)
    && (forall i, j :: 0 <= i < j < |form| ==> PatchKeyRank(form[i].0) < PatchKeyRank(form[j].0))
  }

  /** Every key is one of the four update keys, each at most once, in the fixed order. */
  predicate InPatchKeyOrder(form: seq<Param>)
  {
    RanksAscendIn(form, 0, 4)
  }

  lemma RanksAscendAppend(a: seq<Param>, b: seq<Param>, lo: nat, mid: nat, hi: nat)
    requires lo <= mid <= hi
    requires RanksAscendIn(a, lo, mid) && RanksAscendIn(b, mid, hi)
    ensures RanksAscendIn(a + b, lo, hi)
  {
    forall i | 0 <= i < |a + b|
      ensures lo <= PatchKeyRank((a + b)[i].0) < hi
    {
      if i >= |a| {
        assert (a + b)[i] == b[i - |a|];
      }
    }
    forall i, j | 0 <= i < j < |a + b|
      ensures PatchKeyRank((a + b)[i].0) < PatchKeyRank((a + b)[j].0)
    {
      if j < |a| {
      } else if i < |a| {
        assert PatchKeyRank((a + b)[i].0) < mid <= PatchKeyRank(b[j - |a|].0);
      } else {
        assert (a + b)[i] == b[i - |a|] && (a + b)[j] == b[j - |a|];
      }
    }
  }

  /** An entry list of at most one entry, under a key of the given rank. */
  lemma EntryRank(entry: seq<Param>, key: string, rank: nat)
    requires |entry| <= 1 && (|entry| == 1 ==> entry[0].0 == key)
    requires PatchKeyRank(key) == rank
    ensures RanksAscendIn(entry, rank, rank + 1)
  {
  }

  function BoolEntry(key: string, value: Option<bool>): seq<Param>
  {
    match value
    case None => []
    case Some(b) => [(key, BoolToString(b))]
  }

  function IntEntry(key: string, value: Option<Int32>): seq<Param>
  {
    match value
    case None => []
    case Some(n) => [(key, IntToString(n))]
  }

  /**
   * The form of `updateChapter`: an entry for each argument that is present
   * (whatever its value), under its key, with its `toString()` value, in the
   * order read, bookmarked, lastPageRead, markPrevRead.
   */
  function UpdateChapterForm(read: Option<bool>, bookmarked: Option<bool>, lastPageRead: Option<Int32>,
                             markPreviousRead: Option<bool>): (form: seq<Param>)
    ensures |form| == (if read.Some? then 1 else 0) + (if bookmarked.Some? then 1 else 0)
                      + (if lastPageRead.Some? then 1 else 0) + (if markPreviousRead.Some? then 1 else 0)
  {
    BoolEntry(ReadKey, read) + BoolEntry(BookmarkedKey, bookmarked)
    + IntEntry(LastPageReadKey, lastPageRead) + BoolEntry(MarkPrevReadKey, markPreviousRead)
  }

  /** A key is in the update form if and only if its argument is present; no other key ever is. */
  lemma UpdateChapterFormKeys(read: Option<bool>, bookmarked: Option<bool>, lastPageRead: Option<Int32>,
                              markPreviousRead: Option<bool>, k: string)
    ensures k in Keys(UpdateChapterForm(read, bookmarked, lastPageRead, markPreviousRead)) <==>
      || (k == ReadKey && read.Some?)
      || (k == BookmarkedKey && bookmarked.Some?)
      || (k == LastPageReadKey && lastPageRead.Some?)
      || (k == MarkPrevReadKey && markPreviousRead.Some?)
  {
    var e1, e2, e3, e4 := BoolEntry(ReadKey, read), BoolEntry(BookmarkedKey, bookmarked),
                          IntEntry(LastPageReadKey, lastPageRead), BoolEntry(MarkPrevReadKey, markPreviousRead);
    KeysAppend(e1, e2);
    KeysAppend(e1 + e2, e3);
    KeysAppend(e1 + e2 + e3, e4);
    EntryLookup(e1, ReadKey, if read.Some? then Some(BoolToString(read.value)) else None, k);
    EntryLookup(e2, BookmarkedKey, if bookmarked.Some? then Some(BoolToString(bookmarked.value)) else None, k);
    EntryLookup(e3, LastPageReadKey, if lastPageRead.Some? then Some(IntToString(lastPageRead.value)) else None, k);
    EntryLookup(e4, MarkPrevReadKey,
                if markPreviousRead.Some? then Some(BoolToString(markPreviousRead.value)) else None, k);
  }

  /** With every argument absent the form is empty, and only then. */
  lemma UpdateChapterFormEmpty(read: Option<bool>, bookmarked: Option<bool>, lastPageRead: Option<Int32>,
                               markPreviousRead: Option<bool>)
    ensures UpdateChapterForm(read, bookmarked, lastPageRead, markPreviousRead) == [] <==>
      read.None? && bookmarked.None? && lastPageRead.None? && markPreviousRead.None?
  {
  }

  /** The entries always come in the order read, bookmarked, lastPageRead, markPrevRead. */
  lemma UpdateChapterFormOrder(read: Option<bool>, bookmarked: Option<bool>, lastPageRead: Option<Int32>,
                               markPreviousRead: Option<bool>)
    ensures InPatchKeyOrder(UpdateChapterForm(read, bookmarked, lastPageRead, markPreviousRead))
  {
    var e1, e2, e3, e4 := BoolEntry(ReadKey, read), BoolEntry(BookmarkedKey, bookmarked),
                          IntEntry(LastPageReadKey, lastPageRead), BoolEntry(MarkPrevReadKey, markPreviousRead);
    EntryRank(e1, ReadKey, 0);
    EntryRank(e2, BookmarkedKey, 1);
    EntryRank(e3, LastPageReadKey, 2);
    EntryRank(e4, MarkPrevReadKey, 3);
    RanksAscendAppend(e1, e2, 0, 1, 2);
    RanksAscendAppend(e1 + e2, e3, 0, 2, 3);
    RanksAscendAppend(e1 + e2 + e3, e4, 0, 3, 4);
  }

  lemma LookupOfEntries(e1: seq<Param>, e2: seq<Param>, e3: seq<Param>, e4: seq<Param>, k: string)
    ensures Lookup(e1 + e2 + e3 + e4, k) == if k in Keys(e1) then Lookup(e1, k)
                                            else if k in Keys(e2) then Lookup(e2, k)
                                            else if k in Keys(e3) then Lookup(e3, k)
                                            else Lookup(e4, k)
  {
    KeysAppend(e1, e2);
    KeysAppend(e1 + e2, e3);
    LookupAppend(e1 + e2 + e3, e4, k);
    LookupAppend(e1 + e2, e3, k);
    LookupAppend(e1, e2, k);
  }

  /** An entry list of at most one entry has that entry's key and value, and nothing under other keys. */
  lemma EntryLookup(entry: seq<Param>, key: string, value: Option<string>, k: string)
    requires value.None? ==> entry == []
    requires value.Some? ==> entry == [(key, value.value)]
    ensures k in Keys(entry) <==> k == key && value.Some?
    ensures k == key ==> Lookup(entry, k) == value
  {
    if value.Some? {
      assert entry[1..] == [];
    }
  }

  /** The value under one of the four keys of a form built from four entry lists of at most one entry. */
  lemma LookupOfForm(e1: seq<Param>, e2: seq<Param>, e3: seq<Param>, e4: seq<Param>,
                     v1: Option<string>, v2: Option<string>, v3: Option<string>, v4: Option<string>, k: string)
    requires (v1.None? ==> e1 == []) && (v1.Some? ==> e1 == [(ReadKey, v1.value)])
    requires (v2.None? ==> e2 == []) && (v2.Some? ==> e2 == [(BookmarkedKey, v2.value)])
    requires (v3.None? ==> e3 == []) && (v3.Some? ==> e3 == [(LastPageReadKey, v3.value)])
    requires (v4.None? ==> e4 == []) && (v4.Some? ==> e4 == [(MarkPrevReadKey, v4.value)])
    requires k == ReadKey || k == BookmarkedKey || k == LastPageReadKey || k == MarkPrevReadKey
    ensures Lookup(e1 + e2 + e3 + e4, k) == if k == ReadKey then v1 else if k == BookmarkedKey then v2
                                            else if k == LastPageReadKey then v3 else v4
  {
    LookupOfEntries(e1, e2, e3, e4, k);
    EntryLookup(e1, ReadKey, v1, k);
    EntryLookup(e2, BookmarkedKey, v2, k);
    EntryLookup(e3, LastPageReadKey, v3, k);
    EntryLookup(e4, MarkPrevReadKey, v4, k);
  }

  /** Each present argument is sent under its key with its `toString()` value; an absent one has no value. */
  lemma UpdateChapterFormValues(read: Option<bool>, bookmarked: Option<bool>, lastPageRead: Option<Int32>,
                                markPreviousRead: Option<bool>)
    ensures var form := UpdateChapterForm(read, bookmarked, lastPageRead, markPreviousRead);
      && Lookup(form, ReadKey) == (if read.Some? then Some(BoolToString(read.value)) else None)
      && Lookup(form, BookmarkedKey) == (if bookmarked.Some? then Some(BoolToString(bookmarked.value)) else None)
      && Lookup(form, LastPageReadKey) == (if lastPageRead.Some? then Some(IntToString(lastPageRead.value)) else None)
      && Lookup(form, MarkPrevReadKey) == (if markPreviousRead.Some? then Some(BoolToString(markPreviousRead.value)) else None)
  {
    var v1 := if read.Some? then Some(BoolToString(read.value)) else None;
    var v2 := if bookmarked.Some? then Some(BoolToString(bookmarked.value)) else None;
    var v3 := if lastPageRead.Some? then Some(IntToString(lastPageRead.value)) else None;
    var v4 := if markPreviousRead.Some? then Some(BoolToString(markPreviousRead.value)) else None;
    var e1, e2, e3, e4 := BoolEntry(ReadKey, read), BoolEntry(BookmarkedKey, bookmarked),
                          IntEntry(LastPageReadKey, lastPageRead), BoolEntry(MarkPrevReadKey, markPreviousRead);
    LookupOfForm(e1, e2, e3, e4, v1, v2, v3, v4, ReadKey);
    LookupOfForm(e1, e2, e3, e4, v1, v2, v3, v4, BookmarkedKey);
    LookupOfForm(e1, e2, e3, e4, v1, v2, v3, v4, LastPageReadKey);
    LookupOfForm(e1, e2, e3, e4, v1, v2, v3, v4, MarkPrevReadKey);
  }

  /** Presence, not truthiness: `false` and `0` are still sent. */
  lemma UpdateChapterFormSendsFalsyValues()
    ensures UpdateChapterForm(Some(false), Some(false), Some(0), Some(false))
         == [(ReadKey, "false"), (BookmarkedKey, "false"), (LastPageReadKey, "0"), (MarkPrevReadKey, "false")]
  {
  }

  /** The sparse patch that an update form describes. */
  datatype ChapterPatch = ChapterPatch(read: Option<bool>, bookmarked: Option<bool>,
                                       lastPageRead: Option<Int32>, markPrevRead: Option<bool>)

  const EmptyPatch := ChapterPatch(None, None, None, None)

  function ParseInt32(s: string): Option<Int32>
  {
    match ParseInt(s)
    case Some(n) => if -0x8000_0000 <= n < 0x8000_0000 then Some(n as Int32) else None
    case None => None
  }

  /**
   * The model's own strict reference reader of an update form: it reads the
   * form back into a patch and rejects unknown keys, repeated keys and
   * unparsable values.
   */
  function DecodePatchForm(form: seq<Param>, acc: ChapterPatch): Option<ChapterPatch>
  {
    if form == [] then Some(acc)
    else
      var (k, v) := form[0];
      if k == ReadKey && acc.read.None? && ParseBool(v).Some? then
        DecodePatchForm(form[1..], acc.(read := ParseBool(v)))
      else if k == BookmarkedKey && acc.bookmarked.None? && ParseBool(v).Some? then
        DecodePatchForm(form[1..], acc.(bookmarked := ParseBool(v)))
      else if k == LastPageReadKey && acc.lastPageRead.None? && ParseInt32(v).Some? then
        DecodePatchForm(form[1..], acc.(lastPageRead := ParseInt32(v)))
      else if k == MarkPrevReadKey && acc.markPrevRead.None? && ParseBool(v).Some? then
        DecodePatchForm(form[1..], acc.(markPrevRead := ParseBool(v)))
      else None
  }

  lemma DecodeOneEntry(k: string, v: string, rest: seq<Param>, acc: ChapterPatch)
    ensures DecodePatchForm([(k, v)] + rest, acc) ==
      if k == ReadKey && acc.read.None? && ParseBool(v).Some? then
        DecodePatchForm(rest, acc.(read := ParseBool(v)))
      else if k == BookmarkedKey && acc.bookmarked.None? && ParseBool(v).Some? then
        DecodePatchForm(rest, acc.(bookmarked := ParseBool(v)))
      else if k == LastPageReadKey && acc.lastPageRead.None? && ParseInt32(v).Some? then
        DecodePatchForm(rest, acc.(lastPageRead := ParseInt32(v)))
      else if k == MarkPrevReadKey && acc.markPrevRead.None? && ParseBool(v).Some? then
        DecodePatchForm(rest, acc.(markPrevRead := ParseBool(v)))
      else None
  {
    assert ([(k, v)] + rest)[1..] == rest;
  }

  /**
   * The update form carries exactly the supplied fields and nothing else:
   * decoding it gives back the four arguments, absent ones still absent.
   */
  lemma UpdateChapterFormRoundTrip(read: Option<bool>, bookmarked: Option<bool>, lastPageRead: Option<Int32>,
                                   markPreviousRead: Option<bool>)
    ensures DecodePatchForm(UpdateChapterForm(read, bookmarked, lastPageRead, markPreviousRead), EmptyPatch)
         == Some(ChapterPatch(read, bookmarked, lastPageRead, markPreviousRead))
  {
    var e1, e2, e3, e4 := BoolEntry(ReadKey, read), BoolEntry(BookmarkedKey, bookmarked),
                          IntEntry(LastPageReadKey, lastPageRead), BoolEntry(MarkPrevReadKey, markPreviousRead);
    var p1 := EmptyPatch.(read := read);
    var p2 := p1.(bookmarked := bookmarked);
    var p3 := p2.(lastPageRead := lastPageRead);
    var p4 := p3.(markPrevRead := markPreviousRead);
    assert e1 + e2 + e3 + e4 == e1 + (e2 + (e3 + (e4 + [])));
    // the last entry
    if e4 == [] { assert e4 + [] == []; } else { DecodeOneEntry(MarkPrevReadKey, e4[0].1, [], p3); }
    assert DecodePatchForm(e4 + [], p3) == Some(p4);
    // lastPageRead
    if e3 == [] {
      assert e3 + (e4 + []) == e4 + [];
    } else {
      IntToStringRoundTrip(lastPageRead.value);
      DecodeOneEntry(LastPageReadKey, e3[0].1, e4 + [], p2);
    }
    assert DecodePatchForm(e3 + (e4 + []), p2) == Some(p4);
    // bookmarked
    if e2 == [] { assert e2 + (e3 + (e4 + [])) == e3 + (e4 + []); }
    else { DecodeOneEntry(BookmarkedKey, e2[0].1, e3 + (e4 + []), p1); }
    assert DecodePatchForm(e2 + (e3 + (e4 + [])), p1) == Some(p4);
    // read
    if e1 == [] { assert e1 + (e2 + (e3 + (e4 + []))) == e2 + (e3 + (e4 + [])); }
    else { DecodeOneEntry(ReadKey, e1[0].1, e2 + (e3 + (e4 + [])), EmptyPatch); }
  }
  /** `updateChapter(mangaId, chapterIndex, ...)`: a PATCH form submission with the partial-update form. */
  function UpdateChapter(mangaId: Int64, chapterIndex: Int32, read: Option<bool>, bookmarked: Option<bool>,
                         lastPageRead: Option<Int32>, markPreviousRead: Option<bool>): (r: Request)
    ensures r.call == SubmitFormRepeat && r.verb == Patch
    ensures r.endpoint == UpdateChapterRequest(mangaId, chapterIndex) && r.query == []
    ensures DecodePatchForm(r.form, EmptyPatch) == Some(ChapterPatch(read, bookmarked, lastPageRead, markPreviousRead))
    ensures InPatchKeyOrder(r.form)
  {
    UpdateChapterFormRoundTrip(read, bookmarked, lastPageRead, markPreviousRead);
    UpdateChapterFormOrder(read, bookmarked, lastPageRead, markPreviousRead);
    Request(SubmitFormRepeat, Patch, UpdateChapterRequest(mangaId, chapterIndex), [],
            UpdateChapterForm(read, bookmarked, lastPageRead, markPreviousRead))
  }

  function UpdateChapterByManga(manga: Manga, chapterIndex: Int32, read: Option<bool>, bookmarked: Option<bool>,
                                lastPageRead: Option<Int32>, markPreviousRead: Option<bool>): (r: Request)
    ensures r.verb == Patch && r.endpoint == UpdateChapterRequest(manga.id, chapterIndex)
  {
    UpdateChapter(manga.id, chapterIndex, read, bookmarked, lastPageRead, markPreviousRead)
  }

  function UpdateChapterByMangaChapter(manga: Manga, chapter: Chapter, read: Option<bool>, bookmarked: Option<bool>,
                                       lastPageRead: Option<Int32>, markPreviousRead: Option<bool>): (r: Request)
    ensures r.verb == Patch && r.endpoint == UpdateChapterRequest(manga.id, chapter.index)
  {
    UpdateChapter(manga.id, chapter.index, read, bookmarked, lastPageRead, markPreviousRead)
  }

  // ---------------------------------------------------------------------------
  // getPage: the caller's request-customisation hook is opaque

  /** `getPage(mangaId, chapterIndex, pageNum, block)`: an image fetch of one page. */
  function GetPage(mangaId: Int64, chapterIndex: Int32, pageNum: Int32): (r: Request)
    ensures r.call == ImageFromUrl && r.verb == Get && r.endpoint == PageQuery(mangaId, chapterIndex, pageNum)
    ensures r.query == [] && r.form == []
  {
    Request(ImageFromUrl, Get, PageQuery(mangaId, chapterIndex, pageNum), [], [])
  }

  function GetPageByChapter(chapter: Chapter, pageNum: Int32): (r: Request)
    ensures r.endpoint == PageQuery(chapter.mangaId, chapter.index, pageNum)
  {
    GetPage(chapter.mangaId, chapter.index, pageNum)
  }

  function GetPageByManga(manga: Manga, chapterIndex: Int32, pageNum: Int32): (r: Request)
    ensures r.endpoint == PageQuery(manga.id, chapterIndex, pageNum)
  {
    GetPage(manga.id, chapterIndex, pageNum)
  }

  function GetPageByMangaChapter(manga: Manga, chapter: Chapter, pageNum: Int32): (r: Request)
    ensures r.endpoint == PageQuery(manga.id, chapter.index, pageNum)
  {
    GetPage(manga.id, chapter.index, pageNum)
  }

  // ---------------------------------------------------------------------------
  // queueChapterDownload / deleteChapterDownload

  /** `queueChapterDownload(mangaId, chapterIndex)`: a plain GET of the download-queue entry. */
  function QueueChapterDownload(mangaId: Int64, chapterIndex: Int32): (r: Request)
    ensures r.call == GetRepeat && r.verb == Get && r.endpoint == QueueDownloadChapterRequest(mangaId, chapterIndex)
    ensures r.query == [] && r.form == []
  {
    Request(GetRepeat, Get, QueueDownloadChapterRequest(mangaId, chapterIndex), [], [])
  }

  function QueueChapterDownloadByChapter(chapter: Chapter): (r: Request)
    ensures r.verb == Get && r.endpoint == QueueDownloadChapterRequest(chapter.mangaId, chapter.index)
  {
    QueueChapterDownload(chapter.mangaId, chapter.index)
  }

  function QueueChapterDownloadByManga(manga: Manga, chapterIndex: Int32): (r: Request)
    ensures r.verb == Get && r.endpoint == QueueDownloadChapterRequest(manga.id, chapterIndex)
  {
    QueueChapterDownload(manga.id, chapterIndex)
  }

  function QueueChapterDownloadByMangaChapter(manga: Manga, chapter: Chapter): (r: Request)
    ensures r.verb == Get && r.endpoint == QueueDownloadChapterRequest(manga.id, chapter.index)
  {
    QueueChapterDownload(manga.id, chapter.index)
  }

  /** `deleteChapterDownload(mangaId, chapterIndex)`: a plain DELETE of the download-queue entry. */
  function DeleteChapterDownload(mangaId: Int64, chapterIndex: Int32): (r: Request)
    ensures r.call == DeleteRepeat && r.verb == Delete
    ensures r.endpoint == DeleteDownloadChapterRequest(mangaId, chapterIndex)
    ensures r.query == [] && r.form == []
  {
    Request(DeleteRepeat, Delete, DeleteDownloadChapterRequest(mangaId, chapterIndex), [], [])
  }

  function DeleteChapterDownloadByChapter(chapter: Chapter): (r: Request)
    ensures r.verb == Delete && r.endpoint == DeleteDownloadChapterRequest(chapter.mangaId, chapter.index)
  {
    DeleteChapterDownload(chapter.mangaId, chapter.index)
  }

  function DeleteChapterDownloadByManga(manga: Manga, chapterIndex: Int32): (r: Request)
    ensures r.verb == Delete && r.endpoint == DeleteDownloadChapterRequest(manga.id, chapterIndex)
  {
    DeleteChapterDownload(manga.id, chapterIndex)
  }

  function DeleteChapterDownloadByMangaChapter(manga: Manga, chapter: Chapter): (r: Request)
    ensures r.verb == Delete && r.endpoint == DeleteDownloadChapterRequest(manga.id, chapter.index)
  {
    DeleteChapterDownload(manga.id, chapter.index)
  }

  // ---------------------------------------------------------------------------
  // updateChapterMeta

  /** `updateChapterMeta(mangaId, chapterIndex, key, value)`: a PATCH form with exactly `key` then `value`. */
  function UpdateChapterMeta(mangaId: Int64, chapterIndex: Int32, key: string, value: string): (r: Request)
    ensures r.call == SubmitFormRepeat && r.verb == Patch
    ensures r.endpoint == UpdateChapterMetaRequest(mangaId, chapterIndex) && r.query == []
    ensures Keys(r.form) == ["key", "value"]
    ensures Lookup(r.form, "key") == Some(key) && Lookup(r.form, "value") == Some(value)
  {
    var form := [("key", key), ("value", value)];
    assert form[1..] == [("value", value)] && form[1..][1..] == [];
    assert Keys(form[1..]) == ["value"] + Keys([]);
    Request(SubmitFormRepeat, Patch, UpdateChapterMetaRequest(mangaId, chapterIndex), [], form)
  }

  function UpdateChapterMetaByChapter(chapter: Chapter, key: string, value: string): (r: Request)
    ensures r.verb == Patch && r.endpoint == UpdateChapterMetaRequest(chapter.mangaId, chapter.index)
  {
    UpdateChapterMeta(chapter.mangaId, chapter.index, key, value)
  }

  function UpdateChapterMetaByManga(manga: Manga, chapterIndex: Int32, key: string, value: string): (r: Request)
    ensures r.verb == Patch && r.endpoint == UpdateChapterMetaRequest(manga.id, chapterIndex)
  {
    UpdateChapterMeta(manga.id, chapterIndex, key, value)
  }

  function UpdateChapterMetaByMangaChapter(manga: Manga, chapter: Chapter, key: string, value: string): (r: Request)
    ensures r.verb == Patch && r.endpoint == UpdateChapterMetaRequest(manga.id, chapter.index)
  {
    UpdateChapterMeta(manga.id, chapter.index, key, value)
  }

  // ---------------------------------------------------------------------------
  // The convenience overloads

  /**
   * Every Manga/Chapter overload sends the request of the id-based operation
   * called with `manga.id`, or with `chapter.mangaId` and `chapter.index`.
   */
  lemma OverloadsDelegate(manga: Manga, chapter: Chapter, chapterIndex: Int32, pageNum: Int32, refresh: bool,
                          read: Option<bool>, bookmarked: Option<bool>, lastPageRead: Option<Int32>,
                          markPreviousRead: Option<bool>, key: string, value: string)
    ensures GetChaptersByManga(manga, refresh) == GetChapters(manga.id, refresh)
    ensures GetChapterByChapter(chapter) == GetChapter(chapter.mangaId, chapter.index)
    ensures GetChapterByManga(manga, chapterIndex) == GetChapter(manga.id, chapterIndex)
    ensures GetChapterByMangaChapter(manga, chapter) == GetChapter(manga.id, chapter.index)
    ensures UpdateChapterByManga(manga, chapterIndex, read, bookmarked, lastPageRead, markPreviousRead)
         == UpdateChapter(manga.id, chapterIndex, read, bookmarked, lastPageRead, markPreviousRead)
    ensures UpdateChapterByMangaChapter(manga, chapter, read, bookmarked, lastPageRead, markPreviousRead)
         == UpdateChapter(manga.id, chapter.index, read, bookmarked, lastPageRead, markPreviousRead)
    ensures GetPageByChapter(chapter, pageNum) == GetPage(chapter.mangaId, chapter.index, pageNum)
    ensures GetPageByManga(manga, chapterIndex, pageNum) == GetPage(manga.id, chapterIndex, pageNum)
    ensures GetPageByMangaChapter(manga, chapter, pageNum) == GetPage(manga.id, chapter.index, pageNum)
    ensures QueueChapterDownloadByChapter(chapter) == QueueChapterDownload(chapter.mangaId, chapter.index)
    ensures QueueChapterDownloadByManga(manga, chapterIndex) == QueueChapterDownload(manga.id, chapterIndex)
    ensures QueueChapterDownloadByMangaChapter(manga, chapter) == QueueChapterDownload(manga.id, chapter.index)
    ensures DeleteChapterDownloadByChapter(chapter) == DeleteChapterDownload(chapter.mangaId, chapter.index)
    ensures DeleteChapterDownloadByManga(manga, chapterIndex) == DeleteChapterDownload(manga.id, chapterIndex)
    ensures DeleteChapterDownloadByMangaChapter(manga, chapter) == DeleteChapterDownload(manga.id, chapter.index)
    ensures UpdateChapterMetaByChapter(chapter, key, value) == UpdateChapterMeta(chapter.mangaId, chapter.index, key, value)
    ensures UpdateChapterMetaByManga(manga, chapterIndex, key, value) == UpdateChapterMeta(manga.id, chapterIndex, key, value)
    ensures UpdateChapterMetaByMangaChapter(manga, chapter, key, value) == UpdateChapterMeta(manga.id, chapter.index, key, value)
  {
  }

  /** `getChapter(manga, chapter)` addresses the same chapter as `getChapter(chapter)` exactly when the ids agree. */
  lemma MangaChapterOverloadUsesMangaId(manga: Manga, chapter: Chapter)
    ensures GetChapterByMangaChapter(manga, chapter) == GetChapterByChapter(chapter) <==> manga.id == chapter.mangaId
  {
    if GetChapterByMangaChapter(manga, chapter) == GetChapterByChapter(chapter) {
      assert GetChapterByMangaChapter(manga, chapter).endpoint.mangaId == manga.id;
    }
  }
}

=== FILE: kotlin_std.dfy ===
/**
 * The small part of the Kotlin standard library that the chapter requests and
 * the sources menu rely on: nullable values, the widths of `Int` and `Long`,
 * the decimal `toString` of integers and booleans, and `isBlank`.
 */
module KotlinStd {

  /** A Kotlin nullable value: `None` is `null`. */
  datatype Option<+T> = None | Some(value: T)

  /** Kotlin `Int` (32-bit) and `Long` (64-bit); no arithmetic is done on them here. */
  type Int32 = x: int | -0x8000_0000 <= x < 0x8000_0000
  type Int64 = x: int | -0x8000_0000_0000_0000 <= x < 0x8000_0000_0000_0000

  // ---------------------------------------------------------------------------
  // Boolean.toString()

  function ParseBool(s: string): Option<bool>
  {
    if s == "true" then Some(true) else if s == "false" then Some(false) else None
  }

  /** `Boolean.toString()`: the literal `true` or `false`, which parses back. */
  function BoolToString(b: bool): (s: string)
    ensures ParseBool(s) == Some(b)
    ensures s != ""
  {
    if b then "true" else "false"
  }

  // ---------------------------------------------------------------------------
  // Int.toString() / Long.toString(): plain decimal, a leading '-' when negative

  predicate IsDigit(c: char)
  {
    '0' <= c <= '9'
  }

  predicate AllDigits(s: string)
  {
    forall i :: 0 <= i < |s| ==> IsDigit(s[i])
  }

  function DigitChar(d: nat): (c: char)
    requires d < 10
    ensures IsDigit(c) && c as int - '0' as int == d
  {
    "0123456789"[d]
  }

  function DigitValue(c: char): nat
    requires IsDigit(c)
  {
    c as int - '0' as int
  }

  /** Decimal digits of `n`, most significant first, without leading zeros. */
  function NatToString(n: nat): (s: string)
    ensures |s| > 0 && AllDigits(s)
    ensures s[0] == '0' <==> n == 0
    ensures n < 10 <==> |s| == 1
  {
    if n < 10 then [DigitChar(n)] else NatToString(n / 10) + [DigitChar(n % 10)]
  }

  /** Decimal digits with no leading zero, except for "0" itself. */
  predicate Canonical(s: string)
  {
    |s| > 0 && AllDigits(s) && (s[0] == '0' ==> |s| == 1)
  }

  /** The value of a non-empty string of decimal digits. */
  function ParseNat(s: string): nat
    requires |s| > 0 && AllDigits(s)
  {
    if |s| == 1 then DigitValue(s[0]) else ParseNat(s[..|s| - 1]) * 10 + DigitValue(s[|s| - 1])
  }

  /** `Int.toString()` / `Long.toString()`. */
  function IntToString(n: int): (s: string)
    ensures |s| > 0
    ensures s[0] == '-' <==> n < 0
    ensures n < 0 ==> |s| > 1 && Canonical(s[1..]) && s[1] != '0'
    ensures n >= 0 ==> Canonical(s) && (s[0] == '0' <==> n == 0)
  {
    if n < 0 then "-" + NatToString(-n) else NatToString(n)
  }

  /**
   * Reads back the decimal form `IntToString` writes: an optional '-' and
   * canonical digits, with no "-0". Anything else is refused.
   */
  function ParseInt(s: string): Option<int>
  {
    if |s| > 1 && s[0] == '-' && Canonical(s[1..]) && s[1] != '0' then Some(0 - ParseNat(s[1..]) as int)
    else if Canonical(s) then Some(ParseNat(s))
    else None
  }

  lemma {:induction false} NatToStringRoundTrip(n: nat)
    ensures ParseNat(NatToString(n)) == n
  {
    if n >= 10 {
      var prefix := NatToString(n / 10);
      var s := NatToString(n);
      assert s == prefix + [DigitChar(n % 10)];
      assert s[..|s| - 1] == prefix;
      NatToStringRoundTrip(n / 10);
    }
  }

  /** The decimal string of an integer parses back to that integer. */
  lemma IntToStringRoundTrip(n: int)
    ensures ParseInt(IntToString(n)) == Some(n)
  {
    if n < 0 {
      NegativeRoundTrip(n);
    } else {
      var s := IntToString(n);
      assert s == NatToString(n);
      assert s[0] != '-';
      NatToStringRoundTrip(n);
    }
  }

  lemma NegativeRoundTrip(n: int)
    requires n < 0
    ensures ParseInt(IntToString(n)) == Some(n)
  {
    var digits := NatToString(-n);
    var s := "-" + digits;
    assert s[1..] == digits;
    NatToStringRoundTrip(-n);
    assert ParseInt(s) == Some(n);
  }

  /** Canonical digits are the decimal string of the value they denote. */
  lemma {:induction false} ParseNatCanonical(s: string)
    requires Canonical(s)
    ensures NatToString(ParseNat(s)) == s
  {
    var n := ParseNat(s);
    if |s| == 1 {
      assert NatToString(n) == [DigitChar(n)];
    } else {
      var prefix := s[..|s| - 1];
      var d := DigitValue(s[|s| - 1]);
      assert prefix[0] == s[0];
      ParseNatCanonical(prefix);
      var m := ParseNat(prefix);
      assert m != 0;
      assert n == m * 10 + d && d < 10;
      assert n / 10 == m && n % 10 == d;
      assert NatToString(n) == NatToString(m) + [DigitChar(d)];
      assert s == prefix + [s[|s| - 1]];
    }
  }

  /** `ParseInt` accepts exactly the decimal strings of integers: each string it reads is one. */
  lemma ParseIntCanonical(s: string, n: int)
    requires ParseInt(s) == Some(n)
    ensures s == IntToString(n)
  {
    if |s| > 1 && s[0] == '-' && Canonical(s[1..]) && s[1] != '0' {
      ParseNatCanonical(s[1..]);
      var m := ParseNat(s[1..]);
      assert m != 0;
      assert IntToString(n) == "-" + NatToString(m);
      assert s == [s[0]] + s[1..];
    } else {
      ParseNatCanonical(s);
    }
  }

  /** Distinct integers have distinct decimal strings. */
  lemma IntToStringInjective(a: int, b: int)
    ensures IntToString(a) == IntToString(b) <==> a == b
  {
    if IntToString(a) == IntToString(b) {
      IntToStringRoundTrip(a);
      IntToStringRoundTrip(b);
    }
  }

  // ---------------------------------------------------------------------------
  // Char.isWhitespace() / CharSequence.isBlank()

  /**
   * Kotlin's `Char.isWhitespace()` on the JVM: `Character.isWhitespace` or
   * `Character.isSpaceChar`, written out as the fixed list of code points
   * those accept (the Unicode space, line and paragraph separators and the
   * ASCII controls TAB, LF, VT, FF, CR and FS..US).
   */
  predicate IsWhitespace(c: char)
    ensures c == ' ' || c == '\t' || c == '\n' || c == '\r' || c == '\U{A0}' ==> IsWhitespace(c)
    ensures IsWhitespace(c) ==> c as int <= 0x3000 && !IsDigit(c)
  {
    var n := c as int;
    || 0x09 <= n <= 0x0D
    || 0x1C <= n <= 0x20
    || n == 0xA0
    || n == 0x1680
    || 0x2000 <= n <= 0x200A
    || n == 0x2028 || n == 0x2029
    || n == 0x202F || n == 0x205F
    || n == 0x3000
  }

  /** `CharSequence.isBlank()`: empty, or whitespace only. */
  predicate IsBlank(s: string)
    ensures IsBlank(s) <==> s == [] || (IsWhitespace(s[0]) && IsBlank(s[1..]))
  {
    forall i :: 0 <= i < |s| ==> IsWhitespace(s[i])
  }
}

=== FILE: sources_menu.dfy ===
/**
 * The sources menu view model: the installed sources and the ones shown for
 * the enabled languages, the open tabs and the selected tab, the search
 * state, and the saved-state bundle that mirrors the tabs and the selection.
 */
module SourcesMenu {
  import opened KotlinStd

  /** The fields of a server source that the menu uses. */
  datatype Source = Source(id: Int64, name: string, lang: string)

  /** What the saved-state bundle holds under a key. */
  datatype BundleValue = LongArray(longs: seq<Int64>) | LongValue(long: Int64) | Other(payload: string)

  type Bundle = map<string, BundleValue>

  const SourceTabsKey := "source_tabs"
  const SelectedSourceTabKey := "selected_tab"

  /** Outcome of the initial request for the installed sources. */
  datatype SourceFetch = Fetched(list: seq<Source>) | FetchFailed

  /** The identity of a registered search callback; what it does is not modelled. */
  datatype SearchCallback = SearchCallback(handle: nat)

  // ---------------------------------------------------------------------------
  // Bundle access

  /** `bundle.getLongArray(key)`: null unless a long array is stored there. */
  function GetLongArray(b: Bundle, key: string): (r: Option<seq<Int64>>)
    ensures r.Some? <==> key in b && b[key].LongArray?
    ensures r.Some? ==> b[key] == LongArray(r.value)
  {
    if key in b && b[key].LongArray? then Some(b[key].longs) else None
  }

  /** `bundle.getLong(key, default)`: the default unless a long is stored there. */
  function GetLong(b: Bundle, key: string, default: Int64): (r: Int64)
    ensures key in b && b[key].LongValue? ==> b[key] == LongValue(r)
    ensures !(key in b && b[key].LongValue?) ==> r == default
  {
    if key in b && b[key].LongValue? then b[key].long else default
  }

  // ---------------------------------------------------------------------------
  // Language filter

  /** `installedSources.filter { it.lang in langs }`. */
  function FilterByLangs(installed: seq<Source>, langs: set<string>): (r: seq<Source>)
    ensures forall s :: s in r <==> s in installed && s.lang in langs
    ensures |r| <= |installed|
  {
    if installed == [] then []
    else (if installed[0].lang in langs then [installed[0]] else []) + FilterByLangs(installed[1..], langs)
  }

  /** The filter keeps relative order: filtering a concatenation concatenates the filtered parts. */
  lemma {:induction false} FilterByLangsAppend(a: seq<Source>, b: seq<Source>, langs: set<string>)
    ensures FilterByLangs(a + b, langs) == FilterByLangs(a, langs) + FilterByLangs(b, langs)
  {
    if a == [] {
      assert a + b == b;
    } else {
      assert (a + b)[0] == a[0] && (a + b)[1..] == a[1..] + b;
      FilterByLangsAppend(a[1..], b, langs);
    }
  }

  /** Each occurrence of an enabled source is kept and each other one dropped. */
  lemma {:induction false} FilterByLangsCounts(installed: seq<Source>, langs: set<string>, s: Source)
    ensures multiset(FilterByLangs(installed, langs))[s] == if s.lang in langs then multiset(installed)[s] else 0
  {
    if installed != [] {
      assert installed == [installed[0]] + installed[1..];
      FilterByLangsCounts(installed[1..], langs, s);
    }
  }

  /** A list whose every language is enabled is kept whole. */
  lemma {:induction false} FilterByLangsKeepsAll(installed: seq<Source>, langs: set<string>)
    requires forall i :: 0 <= i < |installed| ==> installed[i].lang in langs
    ensures FilterByLangs(installed, langs) == installed
  {
    if installed != [] {
      FilterByLangsKeepsAll(installed[1..], langs);
    }
  }

  /** `installedSources.map { it.lang }.toSet()`. */
  function SourceLanguages(installed: seq<Source>): (r: set<string>)
    ensures forall l :: l in r <==> exists s :: s in installed && s.lang == l
  {
    set s | s in installed :: s.lang
  }

  // ---------------------------------------------------------------------------
  // Tabs

  /** The "all sources" tab first, then only real sources. */
  predicate TabsShape(tabs: seq<Option<Source>>)
  {
    |tabs| > 0 && tabs[0] == None && forall i :: 0 < i < |tabs| ==> tabs[i].Some?
  }

  predicate NoDuplicates<T(==)>(s: seq<T>)
  {
    forall i, j :: 0 <= i < j < |s| ==> s[i] != s[j]
  }

  /** `tabs + source` unless `source in tabs`. */
  function TabsAfterAdd(tabs: seq<Option<Source>>, source: Source): (r: seq<Option<Source>>)
    ensures Some(source) in r
    ensures Some(source) in tabs ==> r == tabs
    ensures Some(source) !in tabs ==> r == tabs + [Some(source)]
  {
    if Some(source) in tabs then tabs else tabs + [Some(source)]
  }

  /** Adding a tab twice is adding it once, and never creates a duplicate. */
  lemma TabsAfterAddIdempotent(tabs: seq<Option<Source>>, source: Source)
    ensures TabsAfterAdd(TabsAfterAdd(tabs, source), source) == TabsAfterAdd(tabs, source)
    ensures NoDuplicates(tabs) ==> NoDuplicates(TabsAfterAdd(tabs, source))
    ensures TabsShape(tabs) ==> TabsShape(TabsAfterAdd(tabs, source))
  {
  }

  /** Index of the first `x` in `s`, or `|s|` when there is none. */
  function FirstIndex<T(==)>(s: seq<T>, x: T): (i: nat)
    ensures i <= |s|
    ensures i < |s| ==> s[i] == x
    ensures forall j :: 0 <= j < i ==> s[j] != x
  {
    if s == [] then 0 else if s[0] == x then 0 else 1 + FirstIndex(s[1..], x)
  }

  /** `List.minus(element)`: drops the first occurrence of `x`, if any, keeping the rest in order. */
  function RemoveFirst<T(==)>(s: seq<T>, x: T): (r: seq<T>)
    ensures x !in s ==> r == s
    ensures x in s ==> |r| == |s| - 1 && multiset(r) == multiset(s) - multiset{x}
  {
    var i := FirstIndex(s, x);
    if i == |s| then s
    else
      assert s == s[..i] + [x] + s[i + 1..];
      s[..i] + s[i + 1..]
  }

  /** Position in `s` of the element at position `k` of `s` with position `i` removed. */
  function Skip(k: nat, i: nat): nat
  {
    if k < i then k else k + 1
  }

  lemma RemoveFirstAt<T>(s: seq<T>, x: T, k: nat)
    requires x in s && k < |s| - 1
    ensures Skip(k, FirstIndex(s, x)) < |s|
    ensures RemoveFirst(s, x)[k] == s[Skip(k, FirstIndex(s, x))]
  {
    var i := FirstIndex(s, x);
    assert i < |s|;
    var front, back := s[..i], s[i + 1..];
    assert RemoveFirst(s, x) == front + back;
    if k < i {
      assert (front + back)[k] == front[k];
    } else {
      assert (front + back)[k] == back[k - i];
    }
  }

  /** Without duplicates, removing an element removes it completely and keeps the others distinct. */
  lemma RemoveFirstNoDuplicates<T>(s: seq<T>, x: T)
    requires NoDuplicates(s)
    ensures x !in RemoveFirst(s, x)
    ensures NoDuplicates(RemoveFirst(s, x))
    ensures forall y :: y in RemoveFirst(s, x) <==> y in s && y != x
  {
    if x in s {
      var i := FirstIndex(s, x);
      var r := RemoveFirst(s, x);
      forall k, l | 0 <= k < l < |r|
        ensures r[k] != r[l]
      {
        RemoveFirstAt(s, x, k);
        RemoveFirstAt(s, x, l);
      }
      forall y
        ensures y in r <==> y in s && y != x
      {
        if y in r {
          var k :| 0 <= k < |r| && r[k] == y;
          RemoveFirstAt(s, x, k);
          assert Skip(k, i) != i;
        }
        if y in s && y != x {
          var j :| 0 <= j < |s| && s[j] == y;
          var k := if j < i then j else j - 1;
          RemoveFirstAt(s, x, k);
        }
      }
    }
  }

  /** Closing a tab never removes the "all sources" tab and keeps the tab list well formed. */
  lemma RemoveFirstKeepsShape(tabs: seq<Option<Source>>, source: Source)
    requires TabsShape(tabs)
    ensures TabsShape(RemoveFirst(tabs, Some(source)))
  {
    var i := FirstIndex(tabs, Some(source));
    if i < |tabs| {
      var r := RemoveFirst(tabs, Some(source));
      assert r == tabs[..i] + tabs[i + 1..];
      assert forall k :: 0 <= k < |r| ==> r[k] == if k < i then tabs[k] else tabs[k + 1];
    }
  }

  // ---------------------------------------------------------------------------
  // Saving the tabs and the selection

  /** `sources.mapNotNull { it?.id }`. */
  function NonNullIds(tabs: seq<Option<Source>>): (ids: seq<Int64>)
    ensures |ids| <= |tabs|
  {
    if tabs == [] then []
    else (if tabs[0].Some? then [tabs[0].value.id] else []) + NonNullIds(tabs[1..])
  }

  /** What the tabs collector writes. */
  function PersistTabs(b: Bundle, tabs: seq<Option<Source>>): (r: Bundle)
    ensures SourceTabsKey in r && r[SourceTabsKey] == LongArray(NonNullIds(tabs))
    ensures forall k :: k != SourceTabsKey ==> (k in r <==> k in b) && (k in b ==> r[k] == b[k])
  {
    b[SourceTabsKey := LongArray(NonNullIds(tabs))]
  }

  /** What the selection collector writes: the id, or no entry at all for no selection. */
  function PersistSelection(b: Bundle, selected: Option<Source>): (r: Bundle)
    ensures selected.Some? ==> SelectedSourceTabKey in r && r[SelectedSourceTabKey] == LongValue(selected.value.id)
    ensures selected.None? ==> SelectedSourceTabKey !in r
    ensures forall k :: k != SelectedSourceTabKey ==> (k in r <==> k in b) && (k in b ==> r[k] == b[k])
  {
    match selected
    case Some(s) => b[SelectedSourceTabKey := LongValue(s.id)]
    case None => b - {SelectedSourceTabKey}
  }

  /** The tabs collector: a state flow emits only when its value changes, so the bundle is written only then. */
  function MirrorTabs(b: Bundle, before: seq<Option<Source>>, after: seq<Option<Source>>): (r: Bundle)
    ensures after != before ==> SourceTabsKey in r && r[SourceTabsKey] == LongArray(NonNullIds(after))
    ensures after == before ==> r == b
    ensures forall k :: k != SourceTabsKey ==> (k in r <==> k in b) && (k in b ==> r[k] == b[k])
  {
    if after == before then b else PersistTabs(b, after)
  }

  /** The selection collector, likewise written only on a change. */
  function MirrorSelection(b: Bundle, before: Option<Source>, after: Option<Source>): (r: Bundle)
    ensures after != before && after.Some? ==>
      SelectedSourceTabKey in r && r[SelectedSourceTabKey] == LongValue(after.value.id)
    ensures after != before && after.None? ==> SelectedSourceTabKey !in r
    ensures after == before ==> r == b
    ensures forall k :: k != SelectedSourceTabKey ==> (k in r <==> k in b) && (k in b ==> r[k] == b[k])
  {
    if after == before then b else PersistSelection(b, after)
  }

  /**
   * A selected source whose id is `-1` is saved like any other, but `-1` is
   * the default `getLong` falls back to, so it reads back as no selection.
   */
  lemma MinusOneSelectionReadsBackNone(b: Bundle, s: Source, sources: seq<Source>)
    requires s.id == -1
    ensures var r := PersistSelection(b, Some(s));
      && SelectedSourceTabKey in r && r[SelectedSourceTabKey] == LongValue(-1)
      && RestoredSelection(GetLong(r, SelectedSourceTabKey, -1), sources) == None
  {
  }

  /** The bundle holds the ids of the open tabs, and the selected id exactly when there is a selection. */
  predicate InSync(b: Bundle, tabs: seq<Option<Source>>, selected: Option<Source>)
  {
    && GetLongArray(b, SourceTabsKey) == Some(NonNullIds(tabs))
    && (selected.None? ==> SelectedSourceTabKey !in b)
    && (selected.Some? ==> SelectedSourceTabKey in b && b[SelectedSourceTabKey] == LongValue(selected.value.id))
  }

  /** Once the bundle mirrors the tabs and the selection, the collectors keep it that way. */
  lemma MirrorsKeepInSync(b: Bundle, tabsBefore: seq<Option<Source>>, tabsAfter: seq<Option<Source>>,
                          selBefore: Option<Source>, selAfter: Option<Source>)
    requires InSync(b, tabsBefore, selBefore)
    ensures InSync(MirrorSelection(MirrorTabs(b, tabsBefore, tabsAfter), selBefore, selAfter), tabsAfter, selAfter)
  {
  }

  /** The key under which a tab keeps its own state is never one of the two reserved keys. */
  lemma TabStateKeyNotReserved(id: Int64)
    ensures IntToString(id) != SourceTabsKey && IntToString(id) != SelectedSourceTabKey
  {
    var key := IntToString(id);
    assert key[0] == '-' || IsDigit(key[0]);
    assert SourceTabsKey[0] == 's' && SelectedSourceTabKey[0] == 's';
  }

  /** The selection after closing `source`: cleared when it has the closed source's id, otherwise kept. */
  function SelectionAfterClose(selected: Option<Source>, source: Source): (r: Option<Source>)
    ensures r.None? <==> selected.None? || selected.value.id == source.id
    ensures r.Some? ==> r == selected
  {
    if selected.Some? && selected.value.id == source.id then None else selected
  }

  /** Closing a tab keeps the bundle in sync: the per-tab key it drops is not one of the mirrored keys. */
  lemma CloseTabKeepsInSync(b: Bundle, tabs: seq<Option<Source>>, selected: Option<Source>, source: Source)
    requires InSync(b, tabs, selected)
    ensures var tabs', selected' := RemoveFirst(tabs, Some(source)), SelectionAfterClose(selected, source);
      InSync(MirrorSelection(MirrorTabs(b, tabs, tabs'), selected, selected') - {IntToString(source.id)},
             tabs', selected')
  {
    MirrorsKeepInSync(b, tabs, RemoveFirst(tabs, Some(source)), selected, SelectionAfterClose(selected, source));
    TabStateKeyNotReserved(source.id);
  }

  // ---------------------------------------------------------------------------
  // Restoring the tabs and the selection

  /** Index of the first source with this id, or `|sources|` when there is none. */
  function IndexById(sources: seq<Source>, id: Int64): (i: nat)
    ensures i <= |sources|
    ensures i < |sources| ==> sources[i].id == id
    ensures forall j :: 0 <= j < i ==> sources[j].id != id
  {
    if sources == [] then 0 else if sources[0].id == id then 0 else 1 + IndexById(sources[1..], id)
  }

  /** `s` has the id and no source before it has that id. */
  ghost predicate FirstWithId(sources: seq<Source>, id: Int64, s: Source)
  {
    exists i :: 0 <= i < |sources| && sources[i] == s && s.id == id && forall j :: 0 <= j < i ==> sources[j].id != id
  }

  /** `sources.find { it.id == id }`: the first source with that id. */
  function FindById(sources: seq<Source>, id: Int64): (r: Option<Source>)
    ensures r.Some? ==> r.value in sources && FirstWithId(sources, id, r.value)
    ensures r.None? <==> forall s :: s in sources ==> s.id != id
  {
    var i := IndexById(sources, id);
    if i < |sources| then Some(sources[i]) else None
  }

  /** `ids.mapNotNull { id -> sources.find { it.id == id } }`. */
  function MatchIds(ids: seq<Int64>, sources: seq<Source>): (r: seq<Source>)
    ensures |r| <= |ids|
    ensures forall s :: s in r ==> s in sources && s.id in ids && FirstWithId(sources, s.id, s)
  {
    if ids == [] then []
    else
      (match FindById(sources, ids[0]) case Some(s) => [s] case None => []) + MatchIds(ids[1..], sources)
  }

  function Lift(ss: seq<Source>): (r: seq<Option<Source>>)
    ensures |r| == |ss| && forall i :: 0 <= i < |ss| ==> r[i] == Some(ss[i])
  {
    if ss == [] then [] else [Some(ss[0])] + Lift(ss[1..])
  }

  /** `listOf(null) + matched sources`. */
  function RestoredTabs(ids: seq<Int64>, sources: seq<Source>): (tabs: seq<Option<Source>>)
    ensures TabsShape(tabs)
    ensures forall i :: 0 < i < |tabs| ==> tabs[i].value in sources
  {
    [None] + Lift(MatchIds(ids, sources))
  }

  /** The selection read back: none for the `-1` default, else the first source with the id, if any. */
  function RestoredSelection(id: Int64, sources: seq<Source>): (r: Option<Source>)
    ensures id == -1 ==> r == None
    ensures r.Some? ==> r.value in sources && FirstWithId(sources, id, r.value)
    ensures r.None? && id != -1 ==> forall s :: s in sources ==> s.id != id
  {
    if id != -1 then FindById(sources, id) else None
  }

  /** The ids that have a match, in their original order. */
  function MatchedIds(ids: seq<Int64>, sources: seq<Source>): seq<Int64>
  {
    if ids == [] then []
    else (if FindById(sources, ids[0]).Some? then [ids[0]] else []) + MatchedIds(ids[1..], sources)
  }

  lemma {:induction false} NonNullIdsAppend(a: seq<Option<Source>>, b: seq<Option<Source>>)
    ensures NonNullIds(a + b) == NonNullIds(a) + NonNullIds(b)
  {
    if a == [] {
      assert a + b == b;
    } else {
      assert (a + b)[0] == a[0] && (a + b)[1..] == a[1..] + b;
      NonNullIdsAppend(a[1..], b);
    }
  }

  /**
   * Restoring drops exactly the ids that match no source, keeping the order of the others:
   * saving the restored tabs gives back the matched ids.
   */
  lemma {:induction false} RestoredTabsDropUnmatched(ids: seq<Int64>, sources: seq<Source>)
    ensures NonNullIds(RestoredTabs(ids, sources)) == MatchedIds(ids, sources)
  {
    RestoredIdsOfMatch(ids, sources);
    NonNullIdsAppend([None], Lift(MatchIds(ids, sources)));
  }

  lemma {:induction false} RestoredIdsOfMatch(ids: seq<Int64>, sources: seq<Source>)
    ensures NonNullIds(Lift(MatchIds(ids, sources))) == MatchedIds(ids, sources)
  {
    if ids != [] {
      var head := match FindById(sources, ids[0]) case Some(s) => [s] case None => [];
      var tail := MatchIds(ids[1..], sources);
      LiftAppend(head, tail);
      NonNullIdsAppend(Lift(head), Lift(tail));
      RestoredIdsOfMatch(ids[1..], sources);
    }
  }

  lemma {:induction false} LiftAppend(a: seq<Source>, b: seq<Source>)
    ensures Lift(a + b) == Lift(a) + Lift(b)
  {
  }

  /** Restoring from distinct ids never produces a duplicate tab. */
  lemma {:induction false} RestoredTabsDistinct(ids: seq<Int64>, sources: seq<Source>)
    requires NoDuplicates(ids)
    ensures NoDuplicates(RestoredTabs(ids, sources))
  {
    var tabs := RestoredTabs(ids, sources);
    RestoredTabsDropUnmatched(ids, sources);
    MatchedIdsDistinct(ids, sources);
    forall i, j | 0 <= i < j < |tabs|
      ensures tabs[i] != tabs[j]
    {
      if i > 0 {
        NonNullIdsAt(tabs, i);
        NonNullIdsAt(tabs, j);
      }
    }
  }

  /** With the "all" tab first and only sources after it, the saved ids are the tab ids shifted by one. */
  lemma NonNullIdsAt(tabs: seq<Option<Source>>, i: nat)
    requires TabsShape(tabs) && 0 < i < |tabs|
    ensures |NonNullIds(tabs)| == |tabs| - 1 && NonNullIds(tabs)[i - 1] == tabs[i].value.id
  {
    NonNullIdsOfSources(tabs[1..]);
    assert tabs == [None] + tabs[1..];
    NonNullIdsAppend([None], tabs[1..]);
  }

  lemma {:induction false} NonNullIdsOfSources(tabs: seq<Option<Source>>)
    requires forall i :: 0 <= i < |tabs| ==> tabs[i].Some?
    ensures |NonNullIds(tabs)| == |tabs|
    ensures forall i :: 0 <= i < |tabs| ==> NonNullIds(tabs)[i] == tabs[i].value.id
  {
    if tabs != [] {
      NonNullIdsOfSources(tabs[1..]);
    }
  }

  lemma {:induction false} MatchedIdsDistinct(ids: seq<Int64>, sources: seq<Source>)
    requires NoDuplicates(ids)
    ensures NoDuplicates(MatchedIds(ids, sources))
    ensures forall x :: x in MatchedIds(ids, sources) ==> x in ids
  {
    if ids != [] {
      MatchedIdsDistinct(ids[1..], sources);
      assert ids[0] !in ids[1..];
    }
  }

  /** Sources from the server have distinct ids. */
  predicate UniqueIds(sources: seq<Source>)
  {
    forall i, j :: 0 <= i < |sources| && 0 <= j < |sources| && sources[i].id == sources[j].id ==> i == j
  }

  lemma FindByIdOfMember(sources: seq<Source>, s: Source)
    requires UniqueIds(sources) && s in sources
    ensures FindById(sources, s.id) == Some(s)
  {
    var k :| 0 <= k < |sources| && sources[k] == s;
    var i := IndexById(sources, s.id);
    assert i <= k;
  }

  /**
   * Saving then restoring gives back the tabs and the selection, provided every
   * saved source is still loaded and the sources have distinct ids.
   */
  lemma {:induction false} SaveRestoreRoundTrip(b: Bundle, tabs: seq<Option<Source>>, selected: Option<Source>,
                                                 sources: seq<Source>)
    requires TabsShape(tabs) && UniqueIds(sources)
    requires forall i :: 0 < i < |tabs| ==> tabs[i].value in sources
    requires selected.Some? ==> selected.value in sources && selected.value.id != -1
    ensures var saved := PersistSelection(PersistTabs(b, tabs), selected);
      && GetLongArray(saved, SourceTabsKey) == Some(NonNullIds(tabs))
      && RestoredTabs(NonNullIds(tabs), sources) == tabs
      && RestoredSelection(GetLong(saved, SelectedSourceTabKey, -1), sources) == selected
  {
    assert tabs == [None] + tabs[1..];
    NonNullIdsAppend([None], tabs[1..]);
    assert NonNullIds([None]) == [] + NonNullIds([]);
    assert NonNullIds(tabs) == NonNullIds(tabs[1..]);
    MatchIdsOfSaved(tabs[1..], sources);
    if selected.Some? {
      FindByIdOfMember(sources, selected.value);
    }
  }

  lemma {:induction false} MatchIdsOfSaved(tabs: seq<Option<Source>>, sources: seq<Source>)
    requires UniqueIds(sources)
    requires forall i :: 0 <= i < |tabs| ==> tabs[i].Some? && tabs[i].value in sources
    ensures Lift(MatchIds(NonNullIds(tabs), sources)) == tabs
  {
    if tabs != [] {
      FindByIdOfMember(sources, tabs[0].value);
      assert NonNullIds(tabs)[1..] == NonNullIds(tabs[1..]);
      MatchIdsOfSaved(tabs[1..], sources);
    }
  }

  /** Ids 5 and 7 saved, 7 selected, but only source 5 is loaded: its tab comes back, the rest is dropped. */
  lemma RestoreDropsMissingSource()
    ensures var a := Source(5, "A", "en");
      && RestoredTabs([5, 7], [a]) == [None, Some(a)]
      && RestoredSelection(7, [a]) == None
  {
    var a := Source(5, "A", "en");
    assert FindById([a], 7) == None;
    assert MatchIds([7], [a]) == [] + MatchIds([], [a]);
    assert MatchIds([5, 7], [a]) == [a] + MatchIds([7], [a]);
  }

  /** The tabs after a load: restored from `source_tabs` when it is saved, otherwise left as they are. */
  function TabsAfterLoad(b: Bundle, sources: seq<Source>, tabs: seq<Option<Source>>): (r: seq<Option<Source>>)
    ensures GetLongArray(b, SourceTabsKey).None? ==> r == tabs
    ensures GetLongArray(b, SourceTabsKey).Some? ==>
      TabsShape(r) && |r| <= |GetLongArray(b, SourceTabsKey).value| + 1
      && forall i :: 0 < i < |r| ==> r[i].value in sources && r[i].value.id in GetLongArray(b, SourceTabsKey).value
    ensures TabsShape(tabs) ==> TabsShape(r)
  {
    match GetLongArray(b, SourceTabsKey)
    case Some(ids) => RestoredTabs(ids, sources)
    case None => tabs
  }

  /** The selection after a load: restored when `source_tabs` is saved, otherwise left as it is. */
  function SelectionAfterLoad(b: Bundle, sources: seq<Source>, selected: Option<Source>): (r: Option<Source>)
    ensures GetLongArray(b, SourceTabsKey).None? ==> r == selected
    ensures GetLongArray(b, SourceTabsKey).Some? && GetLong(b, SelectedSourceTabKey, -1) == -1 ==> r == None
    ensures GetLongArray(b, SourceTabsKey).Some? && r.Some? ==>
      r.value in sources && FirstWithId(sources, GetLong(b, SelectedSourceTabKey, -1), r.value)
  {
    if GetLongArray(b, SourceTabsKey).Some? then RestoredSelection(GetLong(b, SelectedSourceTabKey, -1), sources)
    else selected
  }

  /** Without saved tab ids a load leaves the tabs, the selection and the bundle as they are. */
  lemma LoadWithoutSavedTabs(b: Bundle, sources: seq<Source>, tabs: seq<Option<Source>>, selected: Option<Source>)
    requires GetLongArray(b, SourceTabsKey).None?
    ensures TabsAfterLoad(b, sources, tabs) == tabs && SelectionAfterLoad(b, sources, selected) == selected
    ensures MirrorSelection(MirrorTabs(b, tabs, tabs), selected, selected) == b
  {
  }

  /** With saved tab ids a load restores both the tabs and the selection against the shown sources. */
  lemma LoadWithSavedTabs(b: Bundle, sources: seq<Source>, tabs: seq<Option<Source>>, selected: Option<Source>)
    requires GetLongArray(b, SourceTabsKey).Some?
    ensures TabsAfterLoad(b, sources, tabs) == RestoredTabs(GetLongArray(b, SourceTabsKey).value, sources)
    ensures SelectionAfterLoad(b, sources, selected) == RestoredSelection(GetLong(b, SelectedSourceTabKey, -1), sources)
  {
  }

  /**
   * A first load into an empty bundle that keeps `[all]` and no selection
   * writes nothing: the collectors skip their initial values, so the bundle
   * holds no `source_tabs` until the first tab change.
   */
  lemma FreshBundleNotYetSaved(sources: seq<Source>)
    ensures TabsAfterLoad(map[], sources, [None]) == [None] && SelectionAfterLoad(map[], sources, None) == None
    ensures MirrorSelection(MirrorTabs(map[], [None], [None]), None, None) == map[]
    ensures !InSync(map[], [None], None)
  {
  }

  /**
   * A load that finds no sources (the initial load failing) with ids 5 and 7
   * saved and 7 selected restores `[all]` and no selection; as neither
   * changes, the saved ids stay in the bundle for a later load.
   */
  lemma FailedLoadKeepsSavedIds()
    ensures var b := map[SourceTabsKey := LongArray([5, 7]), SelectedSourceTabKey := LongValue(7)];
      && TabsAfterLoad(b, [], [None]) == [None]
      && SelectionAfterLoad(b, [], None) == None
      && MirrorSelection(MirrorTabs(b, [None], [None]), None, None) == b
      && GetLongArray(b, SourceTabsKey) == Some([5, 7])
      && !InSync(b, [None], None)
  {
    var b := map[SourceTabsKey := LongArray([5, 7]), SelectedSourceTabKey := LongValue(7)];
    assert MatchIds([5, 7], []) == [];
    assert TabsAfterLoad(b, [], [None]) == [None] + Lift([]);
  }

  // ---------------------------------------------------------------------------
  // Search

  /** `query.takeUnless { it.isBlank() }`. */
  function NormalizeQuery(query: string): (r: Option<string>)
    ensures r.None? <==> forall i :: 0 <= i < |query| ==> IsWhitespace(query[i])
    ensures r.Some? ==> r.value == query
  {
    if IsBlank(query) then None else Some(query)
  }

  // ---------------------------------------------------------------------------
  // The view model

  class SourcesMenuViewModel {
    var bundle: Bundle
    var languages: set<string>
    var isLoading: bool
    var installedSources: seq<Source>
    var sources: seq<Source>
    var sourceTabs: seq<Option<Source>>
    var selectedSourceTab: Option<Source>
    var sourceSearchEnabled: bool
    var sourceSearchQuery: Option<string>
    var searchSource: Option<SearchCallback>

    /** The shown sources are the installed ones in an enabled language; the tab list starts with "all". */
    ghost predicate Valid()
      reads this
    {
      sources == FilterByLangs(installedSources, languages) && TabsShape(sourceTabs)
    }

    /**
     * `init`: the initial state, the two collectors, and the launched
     * `getSources()` run to completion with the given fetch outcome.
     */
    constructor (bundle: Bundle, languages: set<string>, fetch: SourceFetch)
      ensures Valid() && !isLoading
      ensures this.languages == languages
      ensures installedSources == if fetch.Fetched? then fetch.list else []
      ensures sources == FilterByLangs(installedSources, languages)
      ensures sourceTabs == TabsAfterLoad(bundle, sources, [None])
      ensures selectedSourceTab == SelectionAfterLoad(bundle, sources, None)
      ensures this.bundle == MirrorSelection(MirrorTabs(bundle, [None], sourceTabs), None, selectedSourceTab)
      ensures !sourceSearchEnabled && sourceSearchQuery == None && searchSource == None
    {
      this.bundle := bundle;
      this.languages := languages;
      isLoading := true;
      installedSources := [];
      sources := [];
      sourceTabs := [None];
      selectedSourceTab := None;
      sourceSearchEnabled := false;
      sourceSearchQuery := None;
      searchSource := None;
      new;
      assert TabsShape(sourceTabs);
      GetSources(fetch);
    }

    /**
     * The private write `_sourceTabs.value = tabs`, with the collector that
     * saves the tab ids; an internal step of the operations below.
     */
    method SetSourceTabs(tabs: seq<Option<Source>>)
      requires TabsShape(tabs)
      modifies this`sourceTabs, this`bundle
      ensures sourceTabs == tabs
      ensures bundle == MirrorTabs(old(bundle), old(sourceTabs), tabs)
    {
      if tabs != sourceTabs {
        sourceTabs := tabs;
        bundle := PersistTabs(bundle, tabs);
      }
    }

    /**
     * The private write `_selectedSourceTab.value = selected`, with the
     * collector that saves the selected id; an internal step of the operations below.
     */
    method SetSelectedSourceTab(selected: Option<Source>)
      modifies this`selectedSourceTab, this`bundle
      ensures selectedSourceTab == selected
      ensures bundle == MirrorSelection(old(bundle), old(selectedSourceTab), selected)
    {
      if selected != selectedSourceTab {
        selectedSourceTab := selected;
        bundle := PersistSelection(bundle, selected);
      }
    }

    /** The private `setSources(langs)`: show the installed sources whose language is enabled. */
    method SetSources(langs: set<string>)
      modifies this`sources
      ensures sources == FilterByLangs(installedSources, langs)
    {
      sources := FilterByLangs(installedSources, langs);
    }

    /**
     * The body of the coroutine launched by `getSources`: load the installed
     * sources, then (whatever the outcome) restore the saved tabs and
     * selection against the shown sources and stop loading.
     */
    method GetSources(fetch: SourceFetch)
      requires Valid()
      modifies this`installedSources, this`sources, this`sourceTabs, this`selectedSourceTab, this`bundle,
               this`isLoading
      ensures Valid() && !isLoading
      ensures installedSources == if fetch.Fetched? then fetch.list else old(installedSources)
      ensures sources == FilterByLangs(installedSources, languages)
      ensures sourceTabs == TabsAfterLoad(old(bundle), sources, old(sourceTabs))
      ensures selectedSourceTab == SelectionAfterLoad(old(bundle), sources, old(selectedSourceTab))
      ensures bundle == MirrorSelection(MirrorTabs(old(bundle), old(sourceTabs), sourceTabs),
                                        old(selectedSourceTab), selectedSourceTab)
    {
      if fetch.Fetched? {
        installedSources := fetch.list;
        SetSources(languages);
      }
      RestoreSavedTabs();
    }

    /**
     * The `finally` block of the load: when tab ids are saved, rebuild the
     * tabs and the selection from them against the shown sources; then stop
     * loading.
     */
    method RestoreSavedTabs()
      requires Valid()
      modifies this`sourceTabs, this`selectedSourceTab, this`bundle, this`isLoading
      ensures Valid() && !isLoading
      ensures sourceTabs == TabsAfterLoad(old(bundle), sources, old(sourceTabs))
      ensures selectedSourceTab == SelectionAfterLoad(old(bundle), sources, old(selectedSourceTab))
      ensures bundle == MirrorSelection(MirrorTabs(old(bundle), old(sourceTabs), sourceTabs),
                                        old(selectedSourceTab), selectedSourceTab)
    {
      var savedTabs := GetLongArray(bundle, SourceTabsKey);
      if savedTabs.Some? {
        var savedSelection := GetLong(bundle, SelectedSourceTabKey, -1);
        SetSourceTabs(RestoredTabs(savedTabs.value, sources));
        assert GetLong(bundle, SelectedSourceTabKey, -1) == savedSelection;
        SetSelectedSourceTab(RestoredSelection(savedSelection, sources));
      }
      isLoading := false;
    }

    /** `selectTab(source)`. */
    method SelectTab(source: Option<Source>)
      modifies this`selectedSourceTab, this`bundle
      ensures selectedSourceTab == source
      ensures bundle == MirrorSelection(old(bundle), old(selectedSourceTab), source)
      ensures InSync(old(bundle), sourceTabs, old(selectedSourceTab)) ==> InSync(bundle, sourceTabs, source)
    {
      SetSelectedSourceTab(source);
    }

    /** `addTab(source)`: open the tab unless it is already open, then select it. */
    method AddTab(source: Source)
      requires Valid()
      modifies this`sourceTabs, this`selectedSourceTab, this`bundle
      ensures Valid()
      ensures sourceTabs == TabsAfterAdd(old(sourceTabs), source)
      ensures NoDuplicates(old(sourceTabs)) ==> NoDuplicates(sourceTabs)
      ensures selectedSourceTab == Some(source)
      ensures bundle == MirrorSelection(MirrorTabs(old(bundle), old(sourceTabs), sourceTabs),
                                        old(selectedSourceTab), selectedSourceTab)
      ensures InSync(old(bundle), old(sourceTabs), old(selectedSourceTab)) ==>
        InSync(bundle, sourceTabs, selectedSourceTab)
    {
      if InSync(bundle, sourceTabs, selectedSourceTab) {
        MirrorsKeepInSync(bundle, sourceTabs, TabsAfterAdd(sourceTabs, source), selectedSourceTab, Some(source));
      }
      if Some(source) !in sourceTabs {
        SetSourceTabs(sourceTabs + [Some(source)]);
      }
      SelectTab(Some(source));
    }

    /**
     * `closeTab(source)`: drop the tab, clear the selection when it has the
     * same id, and forget the tab's own saved state.
     */
    method CloseTab(source: Source)
      requires Valid()
      modifies this`sourceTabs, this`selectedSourceTab, this`bundle
      ensures Valid()
      ensures sourceTabs == RemoveFirst(old(sourceTabs), Some(source))
      ensures NoDuplicates(old(sourceTabs)) ==> Some(source) !in sourceTabs
      ensures selectedSourceTab == SelectionAfterClose(old(selectedSourceTab), source)
      ensures bundle == MirrorSelection(MirrorTabs(old(bundle), old(sourceTabs), sourceTabs),
                                        old(selectedSourceTab), selectedSourceTab) - {IntToString(source.id)}
      ensures InSync(old(bundle), old(sourceTabs), old(selectedSourceTab)) ==>
        InSync(bundle, sourceTabs, selectedSourceTab)
    {
      if InSync(bundle, sourceTabs, selectedSourceTab) {
        CloseTabKeepsInSync(bundle, sourceTabs, selectedSourceTab, source);
      }
      RemoveFirstKeepsShape(sourceTabs, source);
      if NoDuplicates(sourceTabs) {
        RemoveFirstNoDuplicates(sourceTabs, Some(source));
      }
      SetSourceTabs(RemoveFirst(sourceTabs, Some(source)));
      if selectedSourceTab.Some? && selectedSourceTab.value.id == source.id {
        SetSelectedSourceTab(None);
      }
      bundle := bundle - {IntToString(source.id)};
    }

    /** `setSearch(block)`. */
    method SetSearch(callback: SearchCallback)
      modifies this`searchSource
      ensures searchSource == Some(callback)
    {
      searchSource := Some(callback);
    }

    /** `enableSearch(enabled)`. */
    method EnableSearch(enabled: bool)
      modifies this`sourceSearchEnabled
      ensures sourceSearchEnabled == enabled
    {
      sourceSearchEnabled := enabled;
    }

    /** `search(query)`: a blank query is stored as no query. */
    method Search(query: string)
      modifies this`sourceSearchQuery
      ensures sourceSearchQuery == NormalizeQuery(query)
    {
      sourceSearchQuery := NormalizeQuery(query);
    }

    /**
     * `submitSearch()`: the registered callback, if any, and the query it is
     * called with. Nothing in the view model changes.
     */
    method SubmitSearch() returns (call: Option<(SearchCallback, Option<string>)>)
      ensures call.None? <==> searchSource.None?
      ensures call.Some? ==> call.value == (searchSource.value, sourceSearchQuery)
    {
      call := match searchSource
        case None => None
        case Some(callback) => Some((callback, sourceSearchQuery));
    }

    /** `getSourceLanguages()`: the languages of the installed sources. */
    method GetSourceLanguages() returns (langs: set<string>)
      ensures forall l :: l in langs <==> exists s :: s in installedSources && s.lang == l
    {
      langs := SourceLanguages(installedSources);
    }

    /** `setEnabledLanguages(langs)`: record the languages and re-filter the shown sources. */
    method SetEnabledLanguages(langs: set<string>)
      requires Valid()
      modifies this`languages, this`sources
      ensures Valid()
      ensures languages == langs
      ensures sources == FilterByLangs(installedSources, langs)
    {
      languages := langs;
      SetSources(langs);
    }
  }
}
